=== FILE: README.md ===
# Vietnamese news search engine — retrieval core in Dafny

This project models the retrieval core of a small search engine for Vietnamese
news articles, `indexing.py`:

- **Tokenizer** (`tokenize`). It rewrites `...` to a space, lower-cases, splits on
  whitespace, deletes every character outside `\w`/`\s` from each word and drops
  the curated stopwords. Empty stripped words are kept.
- **Positional inverted index** (the pure loop of `create_inverted_index`). Each
  term maps to document ids, and each id to the ascending positions of the term
  in that document's token stream. Each document also gets a metadata record
  with the source's fallback values and a whitespace word count. Documents keep
  their ingestion order.
- **TF-IDF vector space** (`compute_tfidf_vector_space`, `query_to_vector`). The
  idf is `1 + ln(N/df)` and the term frequency is the sublinear `1 + ln f`. There
  is one sparse vector per document, in ingestion order. The query vector keeps
  each indexed query term once, weighted by its count.
- **Ranked retrieval** (`retrieve_documents`). Each document is scored by a dot
  product over the query terms. A stable sort orders them by descending score.
- **Phrase and boolean search** (`exact_match`, `contain_logical_operator`,
  `exact_match_logical`, `process_logical_operator`). These are:
  - a pairwise-adjacency phrase check;
  - a leading run of `not` words that, when odd, complements the answer in
    metadata order;
  - a strict left-to-right fold of `and`/`or` sub-queries.

How the model is set up:

- Files are `seqs.dfy`, `text.dfy`, `tokenizer.dfy`, `inverted_index.dfy`,
  `vector_space.dfy`, `ranking.dfy`, `phrase.dfy` and `boolean_query.dfy`, one
  module each (`tokenizer.dfy` also holds `TokenizerExamples`).
- The index is an immutable value `Index(tokens, metadata, order)`, built by
  folding the source records in listing order.
- `Consistent` is the invariant every built index satisfies. It says:
  - every posting list is the exact list of positions of its term in its
    document's stream;
  - every stream position is posted;
  - `order` lists the metadata keys once each.
- The natural logarithm is a parameter `ln`. The proofs need only that
  `ln(1) = 0` and that `ln` grows strictly on the positive reals (`IsLog`).
- A call that raises `IndexError` in the source returns `IndexError` in the
  model (`Phrase.Outcome`). It is not excluded by a precondition.

## Model

| member | source | states |
|---|---|---|
| Text.ReplaceEllipsisRemovesAll | indexing.py:23 | after the `...` rewrite no three consecutive dots remain, even from runs of four or more dots |
| Text.ReplaceEllipsisFixpoint | indexing.py:23 | text without `...` is unchanged by the rewrite; text with one gets strictly shorter |
| Text.ReplaceEllipsisIdempotent | indexing.py:23 | rewriting twice is rewriting once |
| Text.ReplaceEllipsisLeftmost | indexing.py:23 | the leftmost `...` becomes exactly one space, the text before it is copied, and the scan resumes after its third dot; with the fixpoint lemma this determines the rewrite on every text |
| Text.LowerStrIdempotent | indexing.py:135-136 | lower-casing twice is lower-casing once, so the second `lower()` on each word changes nothing |
| Text.Words | indexing.py:24 | `split()` yields non-empty, separator-free words, no more of them than characters |
| Text.WordsUnwords | indexing.py:24 | splitting words joined by single spaces gives back the words |
| Tokenizer.Strip | indexing.py:26 | the stripped word keeps only word and space characters, is no longer than the word, and equals it exactly when nothing needed deleting |
| Tokenizer.StripKeepsKept | indexing.py:26 | stripping deletes exactly the characters outside `\w` and `\s`: the result is a subsequence of the word, every word or space character keeps its count, and every other character is gone |
| Tokenizer.InListMembership | indexing.py:8-18 | the stopword scan agrees with set membership |
| Tokenizer.KeepTermsSpec | indexing.py:25-27 | at most one term per word; no term is a stopword; a string is a term iff some word strips to it and it is not a stopword |
| Tokenizer.KeepTermsAppend | indexing.py:25-27 | terms come out in the order of their words: the terms of concatenated word lists are the concatenated terms |
| Tokenizer.TokenizeSpec | indexing.py:22-27 | terms are made of word characters only, never stopwords, at most one per whitespace word of the rewritten lower-cased text; a string is a term iff some such word strips to it and it is not a stopword |
| Tokenizer.KeepTermsPositions | indexing.py:25-27 | the comprehension yields exactly one term per kept word, in word order: term `k` is the stripped form of the word at the `k`-th kept position |
| Tokenizer.TokenizeOrder | indexing.py:22-27 | the terms of a text are, one for one and in text order, the stripped forms of its rewritten lower-cased words that are not stopwords |
| TokenizerExamples.TokenizeEmpty | indexing.py:22-27 | empty text has no terms |
| TokenizerExamples.TokenizeFoldsCaseAndPunctuation | indexing.py:22-27 | `Run... run!` tokenizes to `run`, `run` |
| TokenizerExamples.EmptyNotStopword | indexing.py:8-18 | the empty string is not a stopword |
| TokenizerExamples.TokenizeKeepsEmptyTerm | indexing.py:26 | a punctuation-only word becomes the empty term, which is kept |
| InvertedIndex.OccurrencesBefore | indexing.py:63-66 | the positions below `k` holding `t`: exactly those positions, all below `k`, strictly ascending |
| InvertedIndex.AddPosition | indexing.py:64-66 | one append creates the term and the document entry on first use, appends the position, and changes no other entry |
| InvertedIndex.PostTokensTerms | indexing.py:62-66 | after posting a prefix of the stream the vocabulary is the old one plus the terms of that prefix |
| InvertedIndex.PostTokensOther | indexing.py:62-66 | posting one document leaves every other document's postings as they were |
| InvertedIndex.PostTokensOwn | indexing.py:62-66 | the new document is posted under exactly the terms of the posted prefix, at exactly their positions |
| InvertedIndex.AddDocumentPostings | indexing.py:53-66 | after one ingest, each document's postings are its old ones or, for the new id, the positions in its stream |
| InvertedIndex.AddDocumentOrder | indexing.py:53 | ingesting a fresh id puts it last in the document order, after the earlier ids in their order, and the order still lists every metadata key once |
| InvertedIndex.AddDocumentSound | indexing.py:62-66 | ingesting keeps every posting list equal to the positions of its term in its document's stream |
| InvertedIndex.AddDocumentNoEmptyTerm | indexing.py:64-66 | ingesting never leaves a term with an empty document map |
| InvertedIndex.AddDocumentComplete | indexing.py:62-66 | ingesting keeps every stream position of every document posted |
| InvertedIndex.AddDocumentConsistent | indexing.py:46-66 | ingesting a record with a fresh post id preserves the whole index invariant |
| InvertedIndex.Build | indexing.py:39-66 | the document order is the records' post ids in listing order, and the metadata keys are exactly those ids |
| InvertedIndex.BuildConsistent | indexing.py:37-66 | an index built from records with distinct post ids satisfies the invariant |
| InvertedIndex.BuildMetadata | indexing.py:46-60 | each record is stored under its post id with the source's fallback field values, and `word_count` is the whitespace word count of the raw content |
| InvertedIndex.PostingListShape | indexing.py:62-66 | every posting list is non-empty, strictly ascending, and each position holds its term in the document's stream |
| InvertedIndex.PostedIff | indexing.py:62-66 | in a consistent index a document is posted under a term iff its stream contains the term |
| InvertedIndex.Vocabulary | indexing.py:62-66 | a term is in the vocabulary iff some ingested document's stream contains it |
| VectorSpace.IdfDecreasing | indexing.py:81-83 | a term in fewer documents has a strictly larger idf |
| VectorSpace.IdfAtLeastOne | indexing.py:81-83 | idf is at least one, and exactly one iff the term is in every document |
| VectorSpace.TfIncreasing | indexing.py:91-92 | term frequency is zero for an absent term, one for a single occurrence, at least one when present, and strictly increasing in the count |
| VectorSpace.ComputeSpace | indexing.py:75-96 | idf is defined on exactly the vocabulary; there is one vector per document, in document order; a document's vector has term `t` iff it is posted under `t` |
| VectorSpace.SpaceIdf | indexing.py:79-83 | the computed idf of an index term is 1 + ln(N/df), with N the number of documents and df the number of documents whose text contains the term |
| VectorSpace.SpaceIdfRarer | indexing.py:79-83 | of two index terms, the one contained in fewer documents gets the strictly larger idf in the computed table |
| VectorSpace.OccurrencesCount | indexing.py:91 | the length of a posting list is the number of occurrences of the term in the stream |
| VectorSpace.PostedDocuments | indexing.py:81-82 | in a consistent index the document frequency is the number of documents whose stream contains the term |
| VectorSpace.WeightFromStream | indexing.py:88-94 | a term of a document's text is weighted by its count in the text and the number of documents containing it |
| VectorSpace.SpaceFromStreams | indexing.py:85-94 | a document's vector has exactly the terms of its text, each weighted from the text alone plus the document frequency |
| VectorSpace.TfIdfAtLeastOne | indexing.py:88-94 | a present term with document frequency at most `N` weighs at least one |
| VectorSpace.IdfPositive | indexing.py:81-83 | in a consistent index every idf is at least one |
| VectorSpace.WeightPositive | indexing.py:88-94 | in a consistent index every stored document weight is at least one |
| VectorSpace.SpacePositive | indexing.py:75-96 | every idf and every weight of the computed space is at least one |
| VectorSpace.TermFrequencies | indexing.py:101-105 | the count table's keys are exactly the query tokens known to idf, each with its number of occurrences |
| VectorSpace.FirstOccurrences | indexing.py:101-105 | the table's key order lists each known query token once, and only those |
| VectorSpace.FirstOccurrencesOrder | indexing.py:101-105 | the keys come in the order in which the tokens first occur in the query |
| VectorSpace.WeighTerms | indexing.py:99-113 | the query vector holds each indexed query token once and nothing else |
| VectorSpace.WeighTermsWeights | indexing.py:108-112 | each weighted term is indexed and occurs in the query, and its weight is the sublinear count of the term in the query times its idf |
| VectorSpace.WeighTermsPositive | indexing.py:108-112 | with every idf at least one, every query weight is at least one |
| Ranking.DotOnlyQueryTerms | indexing.py:121-124 | a score depends only on the document's weights for the query's terms |
| Ranking.DotSign | indexing.py:121-124 | with positive weights a score is positive when a query term is weighted by the document, zero otherwise |
| Ranking.NoSharedTermScoresZero | indexing.py:121-124 | without a shared term the score is zero whatever the weights |
| Ranking.Insert | indexing.py:128 | inserting into a descending list keeps it descending and adds exactly the new entry |
| Ranking.SortByScore | indexing.py:128 | the sort output is descending and a permutation of its input |
| Ranking.InsertWithScore | indexing.py:128 | insertion puts the entry ahead of those of its own score and leaves other scores' entries in order |
| Ranking.SortStable | indexing.py:128 | for every score, the entries of that score keep their relative order |
| Ranking.SortAllEqual | indexing.py:128 | a list of equal scores is returned unchanged |
| Ranking.RetrieveRanked | indexing.py:116-131 | the ranking is a permutation of the scored documents, descending, ties in document order |
| Ranking.RetrieveEmptyQuery | indexing.py:116-131 | an empty query vector returns every document in document order |
| Ranking.ScoreOfId | indexing.py:120-125 | with distinct ids, each ranked entry carries its own document's dot product |
| Ranking.QueryWeightsPositive | indexing.py:99-113 | a query vector built against a consistent index has all weights at least one |
| Ranking.SharedTermWeighted | indexing.py:85-113 | a token shared by query and document is a query-vector term that the document's vector weighs |
| Ranking.NonMatchingUnweighted | indexing.py:85-113 | a document sharing no token with the query weighs none of the query-vector terms |
| Ranking.SpaceIdsDistinct | indexing.py:85 | the space lists the documents in ingestion order, each once |
| Ranking.RetrieveSharedFirst | indexing.py:116-131 | a document weighing some query term is ranked ahead of one weighing none |
| Ranking.IndexSeparates | indexing.py:75-113 | over a consistent index, a document sharing a token with the query and one sharing none meet the ranking's separation condition |
| Ranking.RetrieveRanksMatchesFirst | indexing.py:75-131 | over a consistent index, every document sharing a token with the query is ranked ahead of every document sharing none |
| Ranking.SearchRanksMatchesFirst | indexing.py:99-131 | the same for a raw query string after tokenization |
| Phrase.Survivors | indexing.py:141-149 | every document left after `k` words is posted under the `k`-th word |
| Phrase.PairwiseStep | indexing.py:143-148 | the pairwise condition over `k` words is the condition over `k - 1` words plus step `k - 1` of the scan |
| Phrase.SurvivorsSpec | indexing.py:141-149 | the scan keeps a document iff every word is posted for it and each consecutive pair has a position followed by the next word's position |
| Phrase.PhraseMatch | indexing.py:134-151 | an empty word list raises `IndexError`, and nothing else does |
| Phrase.PhraseMatchSpec | indexing.py:136-151 | on a non-empty word list the answer is exactly the documents meeting the pairwise condition, the missing-word check included |
| Phrase.ScanPhrase | indexing.py:141-149 | the loop over word indices ends with exactly the documents meeting the pairwise condition |
| Phrase.Extend | indexing.py:142-147 | one pass of the inner loop keeps exactly the candidates posted under the current word at a position right after the previous word |
| Phrase.PositionsIff | indexing.py:62-66 | posted positions are exactly where the word sits in the stream |
| Phrase.FollowsIffAdjacent | indexing.py:147 | a posted position followed by a posted position of the next word is an adjacent pair in the stream, and back |
| Phrase.PairwiseIffPhraseIn | indexing.py:141-149 | on a consistent index the posting condition is the stream condition: all words present, each consecutive pair adjacent somewhere |
| Phrase.ExactMatchSpec | indexing.py:134-151 | `exact_match` raises iff the query has no words; otherwise it answers exactly the documents whose stream holds every word with each consecutive pair adjacent |
| Phrase.ContiguousRunMatches | indexing.py:143-148 | a query occurring as a contiguous run of the stream is matched |
| Phrase.PairwiseNotChained | indexing.py:147 | the stream `a b x b c` matches the phrase `a b c`, which occurs nowhere in it as a run |
| BooleanQuery.AnyOperator | indexing.py:156-159 | the scan is true iff some word is exactly `AND`, `OR` or `NOT` |
| BooleanQuery.ContainsLogicalOperator | indexing.py:154-159 | true iff some whitespace word of the raw query is exactly `AND`, `OR` or `NOT`, case-sensitively |
| BooleanQuery.NotCount | indexing.py:163-167 | the count is the maximal leading run of `not` words |
| BooleanQuery.Complement | indexing.py:191-193 | the complement lists exactly the documents of the order outside the set |
| BooleanQuery.ComplementSubsequence | indexing.py:191-193 | the complement keeps metadata order |
| BooleanQuery.LogicalMatchWords | indexing.py:161-194 | the sub-query raises iff nothing but `not` words is left |
| BooleanQuery.SurvivorsStreams | indexing.py:178-186 | over a consistent index the scan's survivors are the documents whose stream holds the phrase |
| BooleanQuery.EvenNegationSpec | indexing.py:188-189 | an even `not` count answers exactly the documents whose stream holds the remaining phrase |
| BooleanQuery.OddNegationSpec | indexing.py:175-194 | an odd `not` count answers the documents whose stream does not hold the phrase when every remaining word is indexed, and nothing otherwise |
| BooleanQuery.LogicalMatchOrder | indexing.py:190-194 | a negated answer lists documents in metadata order |
| BooleanQuery.DoubleNegation | indexing.py:162-194 | two more leading `not` words give the same answer |
| BooleanQuery.NotUnknownWordIsEmpty | indexing.py:175-176 | `not w` for an unindexed `w` answers the empty list, not every document |
| BooleanQuery.Connectives | indexing.py:201-209 | there is at most one connective per word, and each is `and` or `or` |
| BooleanQuery.ConnectivesInOrder | indexing.py:201-209 | the connectives are the `and`/`or` words of the query, each once and in query order: the `k`-th is the word at the `k`-th ascending connective position, and a position is listed exactly when its word is `and` or `or` |
| BooleanQuery.Groups | indexing.py:198 | there is one more sub-query than there are connectives |
| BooleanQuery.GroupsFreeOfConnectives | indexing.py:198 | no sub-query holds a connective |
| BooleanQuery.GroupsRoundTrip | indexing.py:197-198 | sub-queries and connectives put back together give the query words |
| BooleanQuery.EvaluateUpTo | indexing.py:199-209 | after at least one connective the result is set-derived |
| BooleanQuery.EvaluateRaises | indexing.py:199-209 | the fold raises iff some sub-query it reaches is empty or only `not` words |
| BooleanQuery.ConnectivesPrefix | indexing.py:201-209 | the connectives seen so far are a prefix of all connectives |
| BooleanQuery.ConnectiveAt | indexing.py:202-208 | a connective word met by the scan is the next connective, so `count` indexes the right sub-query |
| BooleanQuery.FoldConnectives | indexing.py:199-210 | the loop over the words computes the left-to-right fold of the sub-queries |
| BooleanQuery.ProcessLogicalLoop | indexing.py:196-210 | `process_logical_operator` is the left-to-right fold over the query's sub-queries |
| BooleanQuery.NoConnectiveIsSingle | indexing.py:196-210 | a query without connectives is one sub-query |
| BooleanQuery.SelfCombination | indexing.py:202-209 | `q and q` and `q or q` answer the documents of `q` |
| BooleanQuery.CombinationCommutes | indexing.py:202-209 | as sets, `a op b` equals `b op a`, and one raises iff the other does |

## Left out

- File and JSON I/O are left out: the load-if-exists path, `os.listdir`, `json.load`/`json.dump`, the `.json` file-name filter and the progress messages (indexing.py:30-44, 68-70). The model takes the parsed records in listing order as its input.
- A record without a `post_id` cannot be represented: the model's id is a string, while the source keys such a record by `None` (indexing.py:46, 53) and otherwise treats it like any other id. Records sharing a post id are excluded by the precondition `Distinct(Ids(recs))`; the source would overwrite their metadata and merge their posting lists.
- `math.log` and floating point are left out. Weights are exact reals, and the logarithm is a parameter constrained only by `IsLog`. Rounding is not modelled, and neither is the order of the floating sums.
- `QueryToVector` has no contract of its own. It is `WeighTerms` applied to the tokens, and its properties are stated on `WeighTerms`, `WeighTermsWeights` and `WeighTermsPositive`.
- Unicode is approximated:
  - `\w` covers ASCII letters and digits, `_`, the Latin-1 letters and numerics (ordinals, micro sign, superscripts one to three, vulgar fractions) and the Latin Extended letters, Vietnamese included. Letters and digits of other scripts, which Python's `\w` also matches, are deleted by `Strip`.
  - `lower()` covers ASCII, Latin-1 and the Vietnamese capitals.
  - Whitespace is Python's `str.isspace` set.
  - Other scripts are not modelled.
- The second `lower()` applied to each query word (indexing.py:136, 173) is not repeated in the model. The words already come from a lower-cased string, and lower-casing is idempotent (`Text.LowerStrIdempotent`).
- The `re.split` at indexing.py:198 is simplified. Sub-queries are split on whitespace words equal to `and` or `or`. Where the regex splits elsewhere (next to punctuation, as in `(and)`), the source can misalign sub-queries and connectives; the model does not cover this.
- Results that the source builds from a set (indexing.py:151, 189, 205, 209) are modelled as sets (`Hits.Unordered`), because their list order is unspecified. Complements keep metadata order (`Hits.Ordered`).
- An empty phrase, or a sub-query made only of `not` words, raises `IndexError` in the source. The model returns `IndexError` instead of excluding it by a precondition. `ScanPhrase` alone requires a non-empty word list, like the loop it models.
- The tkinter front end of `search_engine.py` is not part of this model: UI, the date filter based on the wall clock, the three-way routing between ranked, phrase and boolean search, and its re-joining of the tokens with spaces before `query_to_vector` (which drops the empty terms that `tokenize` keeps). `Ranking.Search` composes indexing.py's `query_to_vector` and `retrieve_documents` on the raw query.
- The module-level calls and hard-coded paths (indexing.py:213-220) are left out.

=== FILE: boolean_query.dfy ===
/**
 * Boolean queries: detection of operator words, phrase queries under a
 * leading run of negations, and the left-to-right AND/OR combination of
 * sub-queries.
 */
module BooleanQuery {
  import opened Seqs
  import opened Text
  import opened Tokenizer
  import opened InvertedIndex
  import opened Phrase

  /** The operator words, matched case-sensitively. */
  predicate IsOperatorWord(w: string) {
    w == "AND" || w == "OR" || w == "NOT"
  }

  /** Some word of the list is an operator word. */
  predicate HasOperatorWord(ws: seq<string>) {
    exists i :: 0 <= i < |ws| && IsOperatorWord(ws[i])
  }

  /** The scan over the words, stopping at the first operator word. */
  function AnyOperator(ws: seq<string>): (b: bool)
    ensures b <==> HasOperatorWord(ws)
  {
    if |ws| == 0 then false
    else if IsOperatorWord(ws[0]) then true
    else
      assert forall i :: 1 <= i < |ws| ==> ws[i] == ws[1..][i - 1];
      AnyOperator(ws[1..])
  }

  /** `contain_logical_operator(query)`: some whitespace word of the raw query is `AND`, `OR` or `NOT`. */
  function ContainsLogicalOperator(query: string): (b: bool)
    ensures b <==> HasOperatorWord(Words(query))
  {
    AnyOperator(Words(query))
  }

  /** The length of the leading run of `not` words. */
  function NotCount(ws: seq<string>): (n: nat)
    ensures n <= |ws|
    ensures forall i :: 0 <= i < n ==> ws[i] == "not"
    ensures n < |ws| ==> ws[n] != "not"
  {
    if |ws| == 0 || ws[0] != "not" then 0
    else 1 + NotCount(ws[1..])
  }

  /**
   * A result list: the set-derived lists of the source come in no particular
   * order, while a complement follows the insertion order of the metadata.
   */
  datatype Hits = Unordered(docs: set<DocId>) | Ordered(list: seq<DocId>)

  function Members(h: Hits): set<DocId> {
    match h
    case Unordered(s) => s
    case Ordered(l) => set d | d in l
  }

  /** The documents of `order` outside `s`, in the order of `order`. */
  function Complement(order: seq<DocId>, s: set<DocId>): (r: seq<DocId>)
    ensures forall d :: d in r <==> d in order && d !in s
    ensures |r| <= |order|
  {
    if |order| == 0 then []
    else
      var rest := Complement(order[1..], s);
      assert forall d :: d in order <==> d == order[0] || d in order[1..];
      if order[0] in s then rest else [order[0]] + rest
  }

  /** The complement keeps the documents it lists in their metadata order. */
  lemma {:induction false} ComplementSubsequence(order: seq<DocId>, s: set<DocId>)
    ensures IsSubsequence(Complement(order, s), order)
  {
    if |order| > 0 {
      ComplementSubsequence(order[1..], s);
      var rest := Complement(order[1..], s);
      if order[0] in s && |rest| > 0 {
        assert rest[0] in rest;
        assert rest[0] != order[0];
      }
    }
  }

  /**
   * `exact_match_logical` on the lower-cased word list: the leading `not`
   * words are counted and dropped; with no word left the source raises; a
   * remaining word without postings gives an empty list whatever the count; an
   * even count gives the phrase matches, an odd count the indexed documents
   * that are not phrase matches, in metadata order.
   */
  function LogicalMatchWords(ws: seq<string>, idx: Index): (r: Outcome<Hits>)
    ensures r.IndexError? <==> NotCount(ws) == |ws|
  {
    NegatedPhrase(NotCount(ws) % 2 == 1, ws[NotCount(ws)..], idx)
  }

  /** The answer for the words `rest` after the `not` run, negated when the run is odd. */
  function NegatedPhrase(odd: bool, rest: seq<string>, idx: Index): (r: Outcome<Hits>)
    ensures r.IndexError? <==> |rest| == 0
  {
    if !AllPosted(rest, idx.tokens) then Done(Ordered([]))
    else if |rest| == 0 then IndexError
    else
      var matches := Survivors(rest, idx.tokens, |rest|);
      if odd then Done(Ordered(Complement(idx.order, matches)))
      else Done(Unordered(matches))
  }

  /** `exact_match_logical(query, index)`. */
  function ExactMatchLogical(query: string, idx: Index): Outcome<Hits> {
    LogicalMatchWords(Words(LowerStr(query)), idx)
  }

  /** Over a consistent index the scan's survivors are the documents whose stream holds the phrase. */
  lemma SurvivorsStreams(ws: seq<string>, idx: Index)
    requires Consistent(idx)
    requires |ws| > 0
    ensures forall d :: d in Survivors(ws, idx.tokens, |ws|) <==>
      d in idx.metadata && PhraseIn(Stream(idx.metadata[d]), ws)
  {
    SurvivorsSpec(ws, idx.tokens, |ws|);
    forall d | true
      ensures PairwiseMatch(ws, idx.tokens, d, |ws|) <==>
        d in idx.metadata && PhraseIn(Stream(idx.metadata[d]), ws)
    {
      PairwiseIffPhraseIn(idx, ws, d);
    }
  }

  /**
   * Over a consistent index an even number of leading `not` words answers the
   * documents whose stream holds the remaining phrase.
   */
  lemma EvenNegationSpec(ws: seq<string>, idx: Index)
    requires Consistent(idx)
    requires NotCount(ws) < |ws| && NotCount(ws) % 2 == 0
    ensures forall d :: d in Members(LogicalMatchWords(ws, idx).value) <==>
      d in idx.metadata && PhraseIn(Stream(idx.metadata[d]), ws[NotCount(ws)..])
  {
    var rest := ws[NotCount(ws)..];
    SurvivorsStreams(rest, idx);
    if !AllPosted(rest, idx.tokens) {
      var j :| 0 <= j < |rest| && Lookup(idx.tokens, rest[j]) == map[];
      forall d | d in idx.metadata
        ensures !PhraseIn(Stream(idx.metadata[d]), rest)
      {
        PostedIff(idx, rest[j], d);
      }
    }
  }

  /**
   * Over a consistent index an odd number of leading `not` words answers, when
   * every remaining word is posted somewhere, the documents whose stream does not
   * hold the remaining phrase; otherwise nothing.
   */
  lemma OddNegationSpec(ws: seq<string>, idx: Index)
    requires Consistent(idx)
    requires NotCount(ws) < |ws| && NotCount(ws) % 2 == 1
    ensures forall d :: d in Members(LogicalMatchWords(ws, idx).value) <==>
      AllPosted(ws[NotCount(ws)..], idx.tokens) && d in idx.metadata &&
      !PhraseIn(Stream(idx.metadata[d]), ws[NotCount(ws)..])
  {
    var rest := ws[NotCount(ws)..];
    if AllPosted(rest, idx.tokens) {
      SurvivorsStreams(rest, idx);
      var matches := Survivors(rest, idx.tokens, |rest|);
      assert LogicalMatchWords(ws, idx) == Done(Ordered(Complement(idx.order, matches)));
    }
  }

  /** The ordered answer of an odd count keeps the metadata order. */
  lemma LogicalMatchOrder(ws: seq<string>, idx: Index)
    requires LogicalMatchWords(ws, idx).Done?
    requires LogicalMatchWords(ws, idx).value.Ordered?
    ensures IsSubsequence(LogicalMatchWords(ws, idx).value.list, idx.order)
  {
    var rest := ws[NotCount(ws)..];
    if AllPosted(rest, idx.tokens) {
      ComplementSubsequence(idx.order, Survivors(rest, idx.tokens, |rest|));
    }
  }

  /** One more leading `not` adds one to the count and leaves the same words after the run. */
  lemma NotCountCons(ws: seq<string>)
    ensures NotCount(["not"] + ws) == NotCount(ws) + 1
    ensures (["not"] + ws)[NotCount(["not"] + ws)..] == ws[NotCount(ws)..]
  {
    assert (["not"] + ws)[1..] == ws;
  }

  /** Two more leading `not` words change nothing. */
  lemma DoubleNegation(ws: seq<string>, idx: Index)
    ensures LogicalMatchWords(["not", "not"] + ws, idx) == LogicalMatchWords(ws, idx)
  {
    NotCountCons(ws);
    NotCountCons(["not"] + ws);
    assert ["not", "not"] + ws == ["not"] + (["not"] + ws);
    assert (NotCount(ws) + 2) % 2 == NotCount(ws) % 2;
  }

  /**
   * Negating a word nobody has posted gives no documents rather than every
   * document: the missing-word check answers before the count is looked at.
   */
  lemma NotUnknownWordIsEmpty(w: string, idx: Index)
    requires w != "not"
    requires Lookup(idx.tokens, w) == map[]
    ensures LogicalMatchWords(["not", w], idx) == Done(Ordered([]))
  {
    assert ["not", w][1..] == [w];
    assert NotCount(["not", w]) == 1;
    assert ["not", w][1..][0] == w;
  }

  // ----- Sub-queries joined by AND / OR -----

  /** The connective words of the lower-cased query. */
  predicate IsConnective(w: string) {
    w == "and" || w == "or"
  }

  /** The connective words in query order. */
  function Connectives(ws: seq<string>): (cs: seq<string>)
    ensures |cs| <= |ws|
    ensures forall i :: 0 <= i < |cs| ==> IsConnective(cs[i])
  {
    if |ws| == 0 then []
    else
      var w := ws[|ws| - 1];
      Connectives(ws[..|ws| - 1]) + (if IsConnective(w) then [w] else [])
  }

  /** For each word, whether it is a connective. */
  function ConnectiveFlags(ws: seq<string>): (fs: seq<bool>)
    ensures |fs| == |ws|
  {
    seq(|ws|, i requires 0 <= i < |ws| => IsConnective(ws[i]))
  }

  /** The indices of the connective words, ascending. */
  function ConnectivePositions(ws: seq<string>): seq<nat> {
    TrueIndices(ConnectiveFlags(ws))
  }

  /**
   * The connectives are the connective words of the query, each once and in
   * query order: the `k`-th is the word at the `k`-th connective position,
   * the positions ascend, and an index is among them exactly when its word
   * is "and" or "or".
   */
  lemma {:induction false} ConnectivesInOrder(ws: seq<string>)
    ensures |Connectives(ws)| == |ConnectivePositions(ws)|
    ensures StrictlyIncreasing(ConnectivePositions(ws))
    ensures forall k :: 0 <= k < |ConnectivePositions(ws)| ==>
      ConnectivePositions(ws)[k] < |ws| && Connectives(ws)[k] == ws[ConnectivePositions(ws)[k]]
    ensures forall j :: 0 <= j < |ws| ==> (j in ConnectivePositions(ws) <==> IsConnective(ws[j]))
  {
    ConnectivesAtPositions(ws);
    TrueIndicesAscend(ConnectiveFlags(ws));
    TrueIndicesMembers(ConnectiveFlags(ws));
  }

  /** The `k`-th connective is the word at the `k`-th connective position. */
  lemma {:induction false} ConnectivesAtPositions(ws: seq<string>)
    ensures |Connectives(ws)| == |ConnectivePositions(ws)|
    ensures forall k :: 0 <= k < |ConnectivePositions(ws)| ==> Connectives(ws)[k] == ws[ConnectivePositions(ws)[k]]
  {
    if |ws| > 0 {
      var n := |ws| - 1;
      var p := ws[..n];
      ConnectivesAtPositions(p);
      SplitLast(ws);
      assert ConnectiveFlags(ws)[..n] == ConnectiveFlags(p);
      var pp := ConnectivePositions(p);
      assert ConnectivePositions(ws) == pp + (if IsConnective(ws[n]) then [n] else []);
      forall k | 0 <= k < |pp|
        ensures Connectives(ws)[k] == ws[ConnectivePositions(ws)[k]]
      {
        assert p[pp[k]] == ws[pp[k]];
      }
    }
  }

  /** The word lists between the connectives, one more than there are connectives; empty ones included. */
  function Groups(ws: seq<string>): (gs: seq<seq<string>>)
    ensures |gs| == |Connectives(ws)| + 1
  {
    if |ws| == 0 then [[]]
    else
      var gs := Groups(ws[..|ws| - 1]);
      var w := ws[|ws| - 1];
      if IsConnective(w) then gs + [[]]
      else gs[..|gs| - 1] + [gs[|gs| - 1] + [w]]
  }

  /** No group holds a connective. */
  lemma {:induction false} GroupsFreeOfConnectives(ws: seq<string>)
    ensures forall k, j :: 0 <= k < |Groups(ws)| && 0 <= j < |Groups(ws)[k]| ==> !IsConnective(Groups(ws)[k][j])
  {
    if |ws| > 0 {
      GroupsFreeOfConnectives(ws[..|ws| - 1]);
    }
  }

  /** The word list again, from its groups and connectives. */
  function Unsplit(gs: seq<seq<string>>, cs: seq<string>): seq<string>
    requires |gs| == |cs| + 1
    decreases |cs|
  {
    if |cs| == 0 then gs[0]
    else Unsplit(gs[..|gs| - 1], cs[..|cs| - 1]) + [cs[|cs| - 1]] + gs[|gs| - 1]
  }

  /** Appending a word to the last group appends it to the unsplit words. */
  lemma UnsplitExtendLast(gs: seq<seq<string>>, cs: seq<string>, w: string)
    requires |gs| == |cs| + 1
    ensures Unsplit(gs[..|gs| - 1] + [gs[|gs| - 1] + [w]], cs) == Unsplit(gs, cs) + [w]
  {
    var g2 := gs[..|gs| - 1] + [gs[|gs| - 1] + [w]];
    if |cs| > 0 {
      assert g2[..|g2| - 1] == gs[..|gs| - 1];
    }
  }

  /** Opening a new group after a connective appends the connective to the unsplit words. */
  lemma UnsplitNewGroup(gs: seq<seq<string>>, cs: seq<string>, w: string)
    requires |gs| == |cs| + 1
    ensures Unsplit(gs + [[]], cs + [w]) == Unsplit(gs, cs) + [w]
  {
    assert (gs + [[]])[..|gs|] == gs;
    assert (cs + [w])[..|cs|] == cs;
  }

  /** The last word either closes a group as a connective or joins the last group. */
  lemma SplitLast(ws: seq<string>)
    requires |ws| > 0
    ensures IsConnective(ws[|ws| - 1]) ==> Connectives(ws) == Connectives(ws[..|ws| - 1]) + [ws[|ws| - 1]]
    ensures !IsConnective(ws[|ws| - 1]) ==> Connectives(ws) == Connectives(ws[..|ws| - 1])
  {
    var c: seq<string> := [];
    assert Connectives(ws[..|ws| - 1]) + c == Connectives(ws[..|ws| - 1]);
  }

  /** Splitting loses nothing: the groups and connectives put back together give the words. */
  lemma {:induction false} GroupsRoundTrip(ws: seq<string>)
    ensures Unsplit(Groups(ws), Connectives(ws)) == ws
  {
    if |ws| > 0 {
      var p := ws[..|ws| - 1];
      var w := ws[|ws| - 1];
      GroupsRoundTrip(p);
      SplitLast(ws);
      var g := Groups(p);
      if IsConnective(w) {
        UnsplitNewGroup(g, Connectives(p), w);
      } else {
        UnsplitExtendLast(g, Connectives(p), w);
      }
      assert ws == p + [w];
    }
  }


  /** One connective applied to the answers so far and the next sub-query's answer. */
  function Then(op: string, acc: Outcome<Hits>, next: Outcome<Hits>): Outcome<Hits> {
    match acc
    case IndexError => IndexError
    case Done(h) =>
      match next
      case IndexError => IndexError
      case Done(h2) =>
        Done(Unordered(if op == "and" then Members(h) * Members(h2) else Members(h) + Members(h2)))
  }

  /**
   * Left to right, without precedence: the answer after the first `k`
   * connectives, each combining everything before it with the next group.
   */
  function EvaluateUpTo(gs: seq<seq<string>>, cs: seq<string>, k: nat, idx: Index): (r: Outcome<Hits>)
    requires |gs| == |cs| + 1 && k <= |cs|
    ensures k > 0 && r.Done? ==> r.value.Unordered?
  {
    if k == 0 then LogicalMatchWords(gs[0], idx)
    else Then(cs[k - 1], EvaluateUpTo(gs, cs, k - 1, idx), LogicalMatchWords(gs[k], idx))
  }

  /** All groups combined by all connectives. */
  function Evaluate(gs: seq<seq<string>>, cs: seq<string>, idx: Index): Outcome<Hits>
    requires |gs| == |cs| + 1
  {
    EvaluateUpTo(gs, cs, |cs|, idx)
  }

  /** `process_logical_operator(query, index)`. */
  function ProcessLogical(query: string, idx: Index): Outcome<Hits> {
    var ws := Words(LowerStr(query));
    Evaluate(Groups(ws), Connectives(ws), idx)
  }

  /** The combination raises exactly when some group it reached is empty or made only of `not` words. */
  lemma {:induction false} EvaluateRaises(gs: seq<seq<string>>, cs: seq<string>, k: nat, idx: Index)
    requires |gs| == |cs| + 1 && k <= |cs|
    ensures EvaluateUpTo(gs, cs, k, idx).IndexError? <==> exists j :: 0 <= j <= k && NotCount(gs[j]) == |gs[j]|
  {
    if k > 0 {
      EvaluateRaises(gs, cs, k - 1, idx);
    }
  }

  /** The connectives of a prefix of the words are a prefix of the connectives. */
  lemma {:induction false} ConnectivesPrefix(ws: seq<string>, i: nat)
    requires i <= |ws|
    ensures |Connectives(ws[..i])| <= |Connectives(ws)|
    ensures Connectives(ws)[..|Connectives(ws[..i])|] == Connectives(ws[..i])
    decreases |ws| - i
  {
    if i == |ws| {
      assert ws[..i] == ws;
    } else {
      var p := ws[..|ws| - 1];
      ConnectivesPrefix(p, i);
      assert p[..i] == ws[..i];
    }
  }

  /** One more word adds itself to the connectives when it is one. */
  lemma ConnectivesStep(ws: seq<string>, i: nat)
    requires i < |ws|
    ensures Connectives(ws[..i + 1]) == Connectives(ws[..i]) + (if IsConnective(ws[i]) then [ws[i]] else [])
  {
    assert ws[..i + 1][..i] == ws[..i];
  }

  /** A connective word at `i` is the connective counted next. */
  lemma ConnectiveAt(ws: seq<string>, i: nat)
    requires i < |ws| && IsConnective(ws[i])
    ensures |Connectives(ws[..i])| < |Connectives(ws)|
    ensures Connectives(ws)[|Connectives(ws[..i])|] == ws[i]
  {
    ConnectivesPrefix(ws, i + 1);
    ConnectivesStep(ws, i);
    var c := Connectives(ws[..i]);
    assert Connectives(ws)[..|c| + 1][|c|] == ws[i];
  }

  /**
   * The source's loop: walk the words, and at every connective fetch the next
   * group's answer and fold it into the running result.
   */
  method ProcessLogicalLoop(query: string, idx: Index) returns (r: Outcome<Hits>)
    ensures r == ProcessLogical(query, idx)
  {
    r := FoldConnectives(Words(LowerStr(query)), idx);
  }

  /** The loop of `ProcessLogicalLoop` over the lower-cased words. */
  method FoldConnectives(ws: seq<string>, idx: Index) returns (r: Outcome<Hits>)
    ensures r == Evaluate(Groups(ws), Connectives(ws), idx)
  {
    var gs := Groups(ws);
    var cs := Connectives(ws);
    r := LogicalMatchWords(gs[0], idx);
    var count := 0;
    var i := 0;
    while i < |ws|
      invariant 0 <= i <= |ws|
      invariant count == |Connectives(ws[..i])|
      invariant count <= |cs|
      invariant r == EvaluateUpTo(gs, cs, count, idx)
    {
      ConnectivesStep(ws, i);
      if IsConnective(ws[i]) {
        ConnectiveAt(ws, i);
        var next := LogicalMatchWords(gs[count + 1], idx);
        r := Then(ws[i], r, next);
        count := count + 1;
      }
      i := i + 1;
    }
    assert ws[..i] == ws;
  }

  /** Without a connective the query is one sub-query. */
  lemma NoConnectiveIsSingle(ws: seq<string>, idx: Index)
    requires Connectives(ws) == []
    ensures Evaluate(Groups(ws), Connectives(ws), idx) == LogicalMatchWords(ws, idx)
  {
    GroupsRoundTrip(ws);
  }

  /** A sub-query joined with itself by AND or by OR answers its own documents. */
  lemma SelfCombination(g: seq<string>, op: string, idx: Index)
    requires IsConnective(op)
    requires LogicalMatchWords(g, idx).Done?
    ensures Evaluate([g, g], [op], idx).Done?
    ensures Members(Evaluate([g, g], [op], idx).value) == Members(LogicalMatchWords(g, idx).value)
  {
    assert EvaluateUpTo([g, g], [op], 0, idx) == LogicalMatchWords(g, idx);
  }

  /** AND and OR of two sub-queries do not depend on their order, as sets. */
  lemma CombinationCommutes(a: seq<string>, b: seq<string>, op: string, idx: Index)
    requires IsConnective(op)
    ensures Evaluate([a, b], [op], idx).IndexError? <==> Evaluate([b, a], [op], idx).IndexError?
    ensures Evaluate([a, b], [op], idx).Done? ==>
      Members(Evaluate([a, b], [op], idx).value) == Members(Evaluate([b, a], [op], idx).value)
  {
    assert EvaluateUpTo([a, b], [op], 0, idx) == LogicalMatchWords(a, idx);
    assert EvaluateUpTo([b, a], [op], 0, idx) == LogicalMatchWords(b, idx);
  }
}

=== FILE: inverted_index.dfy ===
/**
 * The inverted index: for every term, the documents it occurs in and the
 * positions it occupies in each document's token stream, next to the metadata
 * of every ingested document in ingestion order.
 */
module InvertedIndex {
  import opened Seqs
  import opened Text
  import opened Tokenizer

  type DocId = string

  /** The metadata stored per document. */
  datatype Document = Document(
    title: string,
    content: string,
    author: string,
    date: string,
    category: string,
    wordCount: nat)

  datatype Option<T> = None | Some(value: T)

  /** One parsed source file, in directory-listing order; an absent field is `None`. */
  datatype SourceRecord = SourceRecord(
    postId: DocId,
    title: Option<string>,
    content: Option<string>,
    author: Option<string>,
    date: Option<string>,
    category: Option<string>)

  /** Positions of one term, per document. */
  type DocPostings = map<DocId, seq<nat>>

  /** The `tokens` half of the index: term to document to positions. */
  type Postings = map<Term, DocPostings>

  /**
   * `tokens` and `metadata` as stored; `order` is the insertion order of the
   * metadata keys, which later decides the order of document vectors and so
   * the tie order of ranked results.
   */
  datatype Index = Index(tokens: Postings, metadata: map<DocId, Document>, order: seq<DocId>)

  /** `postings.get(t, {})`. */
  function Lookup(tokens: Postings, t: Term): DocPostings {
    if t in tokens then tokens[t] else map[]
  }

  function GetOr(o: Option<string>, default: string): string {
    match o
    case Some(v) => v
    case None => default
  }

  /** The metadata record of one source file, with the source's fallback values. */
  function ToDocument(rec: SourceRecord): Document {
    var text := GetOr(rec.content, "");
    Document(
      GetOr(rec.title, "Unknown Title"),
      text,
      GetOr(rec.author, "Unknown Author"),
      GetOr(rec.date, "Unknown Date"),
      GetOr(rec.category, "Uncategorized"),
      |Words(text)|)
  }

  /** The token stream of a document, whose indices are the recorded positions. */
  function Stream(doc: Document): seq<Term> {
    Tokenize(doc.content)
  }

  function Ids(recs: seq<SourceRecord>): seq<DocId> {
    seq(|recs|, i requires 0 <= i < |recs| => recs[i].postId)
  }

  /** The positions below `k` at which `t` occurs in `ts`, in ascending order. */
  function OccurrencesBefore(ts: seq<Term>, t: Term, k: nat): (ps: seq<nat>)
    requires k <= |ts|
    ensures forall p {:trigger p in ps} :: p in ps <==> 0 <= p < k && ts[p] == t
    ensures forall i :: 0 <= i < |ps| ==> ps[i] < k
    ensures StrictlyIncreasing(ps)
  {
    if k == 0 then []
    else OccurrencesBefore(ts, t, k - 1) + (if ts[k - 1] == t then [k - 1] else [])
  }

  /** A term absent from the first `k` tokens has no positions below `k`. */
  lemma OccurrencesBeforeAbsent(ts: seq<Term>, t: Term, k: nat)
    requires k <= |ts|
    requires t !in ts[..k]
    ensures OccurrencesBefore(ts, t, k) == []
  {
  }

  /** All positions of `t` in `ts`. */
  function Occurrences(ts: seq<Term>, t: Term): seq<nat> {
    OccurrencesBefore(ts, t, |ts|)
  }

  /** One step of the enumerate loop: append `p` to `tokens[t][id]`, creating both levels on first use. */
  function AddPosition(tokens: Postings, t: Term, id: DocId, p: nat): (r: Postings)
    ensures forall u :: u in r <==> u in tokens || u == t
    ensures forall u :: u in tokens && u != t ==> r[u] == tokens[u]
    ensures forall d :: d in r[t] <==> d in Lookup(tokens, t) || d == id
    ensures forall d :: d in Lookup(tokens, t) && d != id ==> r[t][d] == tokens[t][d]
    ensures r[t][id] == (if id in Lookup(tokens, t) then tokens[t][id] else []) + [p]
  {
    var docs := Lookup(tokens, t);
    var ps := if id in docs then docs[id] else [];
    tokens[t := docs[id := ps + [p]]]
  }

  /** The enumerate loop over the first `k` tokens of one document. */
  function PostTokens(tokens: Postings, id: DocId, ts: seq<Term>, k: nat): Postings
    requires k <= |ts|
  {
    if k == 0 then tokens
    else AddPosition(PostTokens(tokens, id, ts, k - 1), ts[k - 1], id, k - 1)
  }

  /** Ingest one record: store its metadata, then post every token of its content. */
  function AddDocument(idx: Index, rec: SourceRecord): Index
    requires rec.postId !in idx.metadata
  {
    var doc := ToDocument(rec);
    var ts := Stream(doc);
    Index(
      PostTokens(idx.tokens, rec.postId, ts, |ts|),
      idx.metadata[rec.postId := doc],
      idx.order + [rec.postId])
  }

  /** Dropping the last record keeps the ids distinct, and the last id is not among the others. */
  lemma DistinctIdsPrefix(recs: seq<SourceRecord>)
    requires |recs| > 0
    requires Distinct(Ids(recs))
    ensures Distinct(Ids(recs[..|recs| - 1]))
    ensures recs[|recs| - 1].postId !in Ids(recs[..|recs| - 1])
    ensures Ids(recs) == Ids(recs[..|recs| - 1]) + [recs[|recs| - 1].postId]
  {
    var ids := Ids(recs);
    var n := |recs| - 1;
    assert Ids(recs[..n]) == ids[..n];
    assert ids == ids[..n] + [ids[n]];
    forall i | 0 <= i < n
      ensures ids[..n][i] != recs[n].postId
    {
      assert ids[i] != ids[n];
    }
  }

  /** The index built from the records in listing order; post ids must be distinct. */
  function Build(recs: seq<SourceRecord>): (idx: Index)
    requires Distinct(Ids(recs))
    ensures idx.order == Ids(recs)
    ensures forall d :: d in idx.metadata <==> d in idx.order
  {
    if |recs| == 0 then Index(map[], map[], [])
    else
      var prefix := recs[..|recs| - 1];
      DistinctIdsPrefix(recs);
      AddDocument(Build(prefix), recs[|recs| - 1])
  }

  /** Document order lists every metadata key exactly once. */
  ghost predicate OrderListsMetadata(idx: Index) {
    && Distinct(idx.order)
    && (forall d :: d in idx.metadata <==> d in idx.order)
  }

  /** Every posting list is exactly the positions of its term in its document's token stream, where the term occurs. */
  ghost predicate PostingsSound(idx: Index) {
    forall t, d :: t in idx.tokens && d in idx.tokens[t] ==>
      && d in idx.metadata
      && t in Stream(idx.metadata[d])
      && idx.tokens[t][d] == Occurrences(Stream(idx.metadata[d]), t)
  }

  /** Every document posted under a term has metadata. */
  ghost predicate PostedInMetadata(idx: Index) {
    forall t, d :: t in idx.tokens && d in idx.tokens[t] ==> d in idx.metadata
  }

  /** No term has an empty document map. */
  ghost predicate NoEmptyTerm(idx: Index) {
    forall t :: t in idx.tokens ==> |idx.tokens[t]| > 0
  }

  /** Every position of every document's stream is posted under its term. */
  ghost predicate PostingsComplete(idx: Index) {
    forall d, p :: d in idx.metadata && 0 <= p < |Stream(idx.metadata[d])| ==>
      Stream(idx.metadata[d])[p] in idx.tokens && d in idx.tokens[Stream(idx.metadata[d])[p]]
  }

  /** The index invariant kept by ingestion. */
  ghost predicate Consistent(idx: Index) {
    && OrderListsMetadata(idx)
    && PostedInMetadata(idx)
    && PostingsSound(idx)
    && NoEmptyTerm(idx)
    && PostingsComplete(idx)
  }

  /** The posting loop creates exactly the terms of the posted prefix. */
  lemma {:induction false} PostTokensTerms(tokens: Postings, id: DocId, ts: seq<Term>, k: nat)
    requires k <= |ts|
    ensures forall u :: u in PostTokens(tokens, id, ts, k) <==> u in tokens || u in ts[..k]
  {
    if k > 0 {
      PostTokensTerms(tokens, id, ts, k - 1);
      assert ts[..k] == ts[..k - 1] + [ts[k - 1]];
    }
  }

  /** The posting loop for one document leaves the postings of every other document alone. */
  lemma {:induction false} PostTokensOther(tokens: Postings, id: DocId, ts: seq<Term>, k: nat, u: Term, d: DocId)
    requires k <= |ts|
    requires d != id
    ensures var r := PostTokens(tokens, id, ts, k);
      && (u in r && d in r[u] <==> u in tokens && d in tokens[u])
      && (u in tokens && d in tokens[u] ==> r[u][d] == tokens[u][d])
  {
    if k > 0 {
      PostTokensOther(tokens, id, ts, k - 1, u, d);
      var prev := PostTokens(tokens, id, ts, k - 1);
      if u == ts[k - 1] {
        assert d in AddPosition(prev, u, id, k - 1)[u] <==> d in Lookup(prev, u);
      }
    }
  }

  /** The posting loop records the new document under exactly the terms of the prefix, at their positions. */
  lemma {:induction false} PostTokensOwn(tokens: Postings, id: DocId, ts: seq<Term>, k: nat, u: Term)
    requires k <= |ts|
    requires u in tokens ==> id !in tokens[u]
    ensures var r := PostTokens(tokens, id, ts, k);
      && (u in r && id in r[u] <==> u in ts[..k])
      && (u in r && id in r[u] ==> r[u][id] == OccurrencesBefore(ts, u, k))
  {
    if k > 0 {
      PostTokensOwn(tokens, id, ts, k - 1, u);
      var t := ts[k - 1];
      var prev := PostTokens(tokens, id, ts, k - 1);
      var r := AddPosition(prev, t, id, k - 1);
      assert r == PostTokens(tokens, id, ts, k);
      assert u in ts[..k] <==> u in ts[..k - 1] || u == t by {
        assert ts[..k] == ts[..k - 1] + [t];
      }
      if u == t && !(u in prev && id in prev[u]) {
        OccurrencesBeforeAbsent(ts, u, k - 1);
      }
    }
  }

  /** The postings after ingesting `rec`: its own terms, and those of every earlier document unchanged. */
  lemma AddDocumentPostings(idx: Index, rec: SourceRecord)
    requires Consistent(idx)
    requires rec.postId !in idx.metadata
    ensures var r := AddDocument(idx, rec).tokens;
      var ts := Stream(ToDocument(rec));
      && (forall u :: u in r <==> u in idx.tokens || u in ts)
      && (forall u, d :: d != rec.postId ==> (u in r && d in r[u] <==> u in idx.tokens && d in idx.tokens[u]))
      && (forall u, d :: d != rec.postId && u in idx.tokens && d in idx.tokens[u] ==> r[u][d] == idx.tokens[u][d])
      && (forall u :: u in r && rec.postId in r[u] <==> u in ts)
      && (forall u :: u in r && rec.postId in r[u] ==> r[u][rec.postId] == Occurrences(ts, u))
  {
    var id := rec.postId;
    var ts := Stream(ToDocument(rec));
    var r := PostTokens(idx.tokens, id, ts, |ts|);
    assert ts[..|ts|] == ts;
    PostTokensTerms(idx.tokens, id, ts, |ts|);
    forall u, d | d != id
      ensures u in r && d in r[u] <==> u in idx.tokens && d in idx.tokens[u]
      ensures u in idx.tokens && d in idx.tokens[u] ==> r[u][d] == idx.tokens[u][d]
    {
      PostTokensOther(idx.tokens, id, ts, |ts|, u, d);
    }
    forall u
      ensures u in r && id in r[u] <==> u in ts
      ensures u in r && id in r[u] ==> r[u][id] == Occurrences(ts, u)
    {
      PostTokensOwn(idx.tokens, id, ts, |ts|, u);
    }
  }

  /** Ingesting a fresh id puts it last in the document order, after the earlier documents in their order. */
  lemma AddDocumentOrder(idx: Index, rec: SourceRecord)
    requires OrderListsMetadata(idx)
    requires rec.postId !in idx.metadata
    ensures |AddDocument(idx, rec).order| == |idx.order| + 1
    ensures AddDocument(idx, rec).order[..|idx.order|] == idx.order
    ensures AddDocument(idx, rec).order[|idx.order|] == rec.postId
    ensures OrderListsMetadata(AddDocument(idx, rec))
  {
    assert rec.postId !in idx.order;
  }

  lemma AddDocumentSound(idx: Index, rec: SourceRecord)
    requires Consistent(idx)
    requires rec.postId !in idx.metadata
    ensures PostingsSound(AddDocument(idx, rec))
  {
    var r := AddDocument(idx, rec);
    AddDocumentPostings(idx, rec);
    forall t, d | t in r.tokens && d in r.tokens[t]
      ensures && d in r.metadata
              && t in Stream(r.metadata[d])
              && r.tokens[t][d] == Occurrences(Stream(r.metadata[d]), t)
    {
      if d != rec.postId {
        assert r.metadata[d] == idx.metadata[d];
      }
    }
  }

  lemma AddDocumentNoEmptyTerm(idx: Index, rec: SourceRecord)
    requires Consistent(idx)
    requires rec.postId !in idx.metadata
    ensures NoEmptyTerm(AddDocument(idx, rec))
  {
    var r := AddDocument(idx, rec);
    AddDocumentPostings(idx, rec);
    forall t | t in r.tokens
      ensures |r.tokens[t]| > 0
    {
      if t in idx.tokens {
        var d :| d in idx.tokens[t];
        assert d in idx.metadata;
        assert d in r.tokens[t];
      } else {
        assert rec.postId in r.tokens[t];
      }
    }
  }

  lemma AddDocumentComplete(idx: Index, rec: SourceRecord)
    requires Consistent(idx)
    requires rec.postId !in idx.metadata
    ensures PostingsComplete(AddDocument(idx, rec))
  {
    var r := AddDocument(idx, rec);
    var ts := Stream(ToDocument(rec));
    AddDocumentPostings(idx, rec);
    forall d, p | d in r.metadata && 0 <= p < |Stream(r.metadata[d])|
      ensures Stream(r.metadata[d])[p] in r.tokens && d in r.tokens[Stream(r.metadata[d])[p]]
    {
      if d == rec.postId {
        assert ts[p] in ts;
      } else {
        assert r.metadata[d] == idx.metadata[d];
      }
    }
  }

  /** Ingesting a record with a fresh post id keeps the index invariant. */
  lemma AddDocumentConsistent(idx: Index, rec: SourceRecord)
    requires Consistent(idx)
    requires rec.postId !in idx.metadata
    ensures Consistent(AddDocument(idx, rec))
  {
    AddDocumentOrder(idx, rec);
    AddDocumentSound(idx, rec);
    assert PostedInMetadata(AddDocument(idx, rec));
    AddDocumentNoEmptyTerm(idx, rec);
    AddDocumentComplete(idx, rec);
  }

  /** Building from records with distinct post ids yields a consistent index. */
  lemma {:induction false} BuildConsistent(recs: seq<SourceRecord>)
    requires Distinct(Ids(recs))
    ensures Consistent(Build(recs))
  {
    if |recs| > 0 {
      var prefix := recs[..|recs| - 1];
      DistinctIdsPrefix(recs);
      BuildConsistent(prefix);
      AddDocumentConsistent(Build(prefix), recs[|recs| - 1]);
    }
  }

  /**
   * Each record's metadata is stored under its post id with the source's
   * fallbacks for absent fields, and `word_count` is the number of
   * whitespace-separated words of the raw content.
   */
  lemma {:induction false} BuildMetadata(recs: seq<SourceRecord>, i: nat)
    requires Distinct(Ids(recs))
    requires i < |recs|
    ensures recs[i].postId in Build(recs).metadata
    ensures var doc := Build(recs).metadata[recs[i].postId];
      && doc.title == (if recs[i].title.Some? then recs[i].title.value else "Unknown Title")
      && doc.content == (if recs[i].content.Some? then recs[i].content.value else "")
      && doc.author == (if recs[i].author.Some? then recs[i].author.value else "Unknown Author")
      && doc.date == (if recs[i].date.Some? then recs[i].date.value else "Unknown Date")
      && doc.category == (if recs[i].category.Some? then recs[i].category.value else "Uncategorized")
      && doc.wordCount == |Words(doc.content)|
  {
    var prefix := recs[..|recs| - 1];
    DistinctIdsPrefix(recs);
    if i < |recs| - 1 {
      BuildMetadata(prefix, i);
      assert recs[i].postId != recs[|recs| - 1].postId by {
        assert Ids(recs)[i] != Ids(recs)[|recs| - 1];
      }
    }
  }

  /** A posting list is non-empty, strictly ascending, and points only at occurrences of its term. */
  lemma PostingListShape(idx: Index, t: Term, d: DocId)
    requires Consistent(idx)
    requires t in idx.tokens && d in idx.tokens[t]
    ensures var ps := idx.tokens[t][d];
      && |ps| > 0
      && StrictlyIncreasing(ps)
      && forall i :: 0 <= i < |ps| ==> ps[i] < |Stream(idx.metadata[d])| && Stream(idx.metadata[d])[ps[i]] == t
  {
    var ts := Stream(idx.metadata[d]);
    var ps := idx.tokens[t][d];
    assert ps == Occurrences(ts, t);
    var p :| 0 <= p < |ts| && ts[p] == t;
    assert p in ps;
    forall i | 0 <= i < |ps|
      ensures ps[i] < |ts| && ts[ps[i]] == t
    {
      assert ps[i] in ps;
    }
  }

  /** In a consistent index a document is posted under a term exactly when its stream contains the term. */
  lemma PostedIff(idx: Index, t: Term, d: DocId)
    requires Consistent(idx)
    ensures d in Lookup(idx.tokens, t) <==> d in idx.metadata && t in Stream(idx.metadata[d])
  {
    if d in idx.metadata && t in Stream(idx.metadata[d]) {
      var ts := Stream(idx.metadata[d]);
      var p :| 0 <= p < |ts| && ts[p] == t;
      assert ts[p] in idx.tokens && d in idx.tokens[ts[p]];
    }
  }

  /** A term is in the vocabulary exactly when the token stream of some ingested document contains it. */
  lemma Vocabulary(idx: Index, t: Term)
    requires Consistent(idx)
    ensures t in idx.tokens <==> exists d :: d in idx.metadata && t in Stream(idx.metadata[d])
  {
    if t in idx.tokens {
      var d :| d in idx.tokens[t];
      PostedIff(idx, t, d);
    }
    if exists d :: d in idx.metadata && t in Stream(idx.metadata[d]) {
      var d :| d in idx.metadata && t in Stream(idx.metadata[d]);
      PostedIff(idx, t, d);
    }
  }
}

=== FILE: phrase.dfy ===
/**
 * Phrase search over the positional index: every word of the lower-cased query
 * must be posted for a document, and each consecutive pair of words must occur
 * at adjacent positions of that document's token stream.
 */
module Phrase {
  import opened Text
  import opened Tokenizer
  import opened InvertedIndex

  /** What a call produces: a value, or the `IndexError` raised by reading the first word of an empty word list. */
  datatype Outcome<T> = Done(value: T) | IndexError

  /** Some position in `prev` is immediately followed by a position in `next`. */
  predicate Follows(prev: seq<nat>, next: seq<nat>) {
    exists p :: p in prev && p + 1 in next
  }

  /** Every word has a non-empty posting dictionary (`all(token_data)`). */
  predicate AllPosted(ws: seq<string>, tokens: Postings) {
    forall j :: 0 <= j < |ws| ==> Lookup(tokens, ws[j]) != map[]
  }

  /**
   * Step `i` of the scan keeps `d` when it is posted under the previous and the
   * current word and some previous position is followed by a current one.
   */
  predicate Keeps(ws: seq<string>, tokens: Postings, i: nat, d: DocId)
    requires 1 <= i < |ws|
  {
    && d in Lookup(tokens, ws[i - 1])
    && d in Lookup(tokens, ws[i])
    && Follows(Lookup(tokens, ws[i - 1])[d], Lookup(tokens, ws[i])[d])
  }

  /**
   * The documents still in `result_docs` after the first `k` words: those of the
   * first word, then those of each further word whose positions follow the
   * previous word's positions in that document.
   */
  function Survivors(ws: seq<string>, tokens: Postings, k: nat): (r: set<DocId>)
    requires 1 <= k <= |ws|
    ensures forall d :: d in r ==> d in Lookup(tokens, ws[k - 1])
  {
    if k == 1 then Lookup(tokens, ws[0]).Keys
    else
      var prev := Survivors(ws, tokens, k - 1);
      set d | d in prev && Keeps(ws, tokens, k - 1, d)
  }

  /**
   * The reference condition on one document over the first `k` words: every
   * word is posted for it and every consecutive pair is adjacent somewhere in it.
   * Pairs are checked one at a time; nothing ties the second word of one pair to
   * the first word of the next.
   */
  predicate PairwiseMatch(ws: seq<string>, tokens: Postings, d: DocId, k: nat)
    requires k <= |ws|
  {
    && (forall j :: 0 <= j < k ==> d in Lookup(tokens, ws[j]))
    && (forall j :: 1 <= j < k ==>
          Follows(Lookup(tokens, ws[j - 1])[d], Lookup(tokens, ws[j])[d]))
  }

  /** The condition over `k` words is the condition over `k - 1` words plus step `k - 1`. */
  lemma PairwiseStep(ws: seq<string>, tokens: Postings, d: DocId, k: nat)
    requires 2 <= k <= |ws|
    ensures PairwiseMatch(ws, tokens, d, k) <==> PairwiseMatch(ws, tokens, d, k - 1) && Keeps(ws, tokens, k - 1, d)
  {
    if PairwiseMatch(ws, tokens, d, k - 1) && Keeps(ws, tokens, k - 1, d) {
      forall j | 1 <= j < k
        ensures Follows(Lookup(tokens, ws[j - 1])[d], Lookup(tokens, ws[j])[d])
      {
        if j < k - 1 {
          assert 1 <= j < k - 1;
        }
      }
    }
  }

  /** The scan keeps exactly the documents meeting the pairwise condition. */
  lemma {:induction false} SurvivorsSpec(ws: seq<string>, tokens: Postings, k: nat)
    requires 1 <= k <= |ws|
    ensures forall d :: d in Survivors(ws, tokens, k) <==> PairwiseMatch(ws, tokens, d, k)
  {
    if k > 1 {
      SurvivorsSpec(ws, tokens, k - 1);
      forall d
        ensures d in Survivors(ws, tokens, k) <==> PairwiseMatch(ws, tokens, d, k)
      {
        PairwiseStep(ws, tokens, d, k);
      }
    }
  }

  /**
   * `exact_match` on an already split word list: an empty list raises, a word
   * without postings gives no documents, otherwise the scan's survivors.
   */
  function PhraseMatch(ws: seq<string>, tokens: Postings): (r: Outcome<set<DocId>>)
    ensures r.IndexError? <==> |ws| == 0
  {
    if !AllPosted(ws, tokens) then Done({})
    else if |ws| == 0 then IndexError
    else Done(Survivors(ws, tokens, |ws|))
  }

  /**
   * The word check in front of the scan never changes the answer: on a
   * non-empty word list the result is exactly the documents meeting the
   * pairwise condition.
   */
  lemma PhraseMatchSpec(ws: seq<string>, tokens: Postings)
    requires |ws| > 0
    ensures forall d :: d in PhraseMatch(ws, tokens).value <==> PairwiseMatch(ws, tokens, d, |ws|)
  {
    SurvivorsSpec(ws, tokens, |ws|);
    if !AllPosted(ws, tokens) {
      var j :| 0 <= j < |ws| && Lookup(tokens, ws[j]) == map[];
      assert forall d :: d !in Lookup(tokens, ws[j]);
    }
  }

  /** `exact_match(query, index)`: the query is lower-cased and split on whitespace. */
  function ExactMatch(query: string, idx: Index): Outcome<set<DocId>> {
    PhraseMatch(Words(LowerStr(query)), idx.tokens)
  }

  /**
   * The same scan written as the source's loop over word indices, rebuilding
   * the candidate set at each step.
   */
  method ScanPhrase(ws: seq<string>, tokens: Postings) returns (docs: set<DocId>)
    requires |ws| > 0
    ensures forall d :: d in docs <==> PairwiseMatch(ws, tokens, d, |ws|)
  {
    docs := Lookup(tokens, ws[0]).Keys;
    var i := 1;
    while i < |ws|
      invariant 1 <= i <= |ws|
      invariant docs == Survivors(ws, tokens, i)
    {
      var next := Extend(ws, tokens, i, docs);
      assert next == Survivors(ws, tokens, i + 1);
      docs := next;
      i := i + 1;
    }
    SurvivorsSpec(ws, tokens, |ws|);
  }

  /** One pass of the inner loop: keeps the documents of `docs` where word `i` follows word `i - 1`. */
  method Extend(ws: seq<string>, tokens: Postings, i: nat, docs: set<DocId>) returns (next: set<DocId>)
    requires 1 <= i < |ws|
    requires forall d :: d in docs ==> d in Lookup(tokens, ws[i - 1])
    ensures forall d :: d in next <==> d in docs && Keeps(ws, tokens, i, d)
  {
    next := {};
    var rest := docs;
    while rest != {}
      invariant rest <= docs
      invariant forall d :: d in next <==> d in docs - rest && Keeps(ws, tokens, i, d)
      decreases |rest|
    {
      var d :| d in rest;
      if d in Lookup(tokens, ws[i])
         && Follows(Lookup(tokens, ws[i - 1])[d], Lookup(tokens, ws[i])[d]) {
        next := next + {d};
      }
      rest := rest - {d};
    }
  }

  // ----- The same condition read on token streams -----

  /** `u` is immediately followed by `v` somewhere in `ts`. */
  predicate Adjacent(ts: seq<Term>, u: Term, v: Term) {
    exists p :: 0 <= p < |ts| - 1 && ts[p] == u && ts[p + 1] == v
  }

  /** Every word occurs in `ts` and every consecutive pair of words is adjacent in `ts`. */
  predicate PhraseIn(ts: seq<Term>, ws: seq<string>) {
    && (forall j :: 0 <= j < |ws| ==> ws[j] in ts)
    && (forall j :: 1 <= j < |ws| ==> Adjacent(ts, ws[j - 1], ws[j]))
  }

  /** In a consistent index the posted positions are exactly where the word sits in the stream. */
  lemma PositionsIff(idx: Index, w: Term, d: DocId)
    requires Consistent(idx)
    requires d in Lookup(idx.tokens, w)
    ensures d in idx.metadata
    ensures forall p :: p in Lookup(idx.tokens, w)[d] <==>
      0 <= p < |Stream(idx.metadata[d])| && Stream(idx.metadata[d])[p] == w
  {
  }

  /** Posted positions that follow each other are adjacent stream positions, and back. */
  lemma FollowsIffAdjacent(idx: Index, u: Term, v: Term, d: DocId)
    requires Consistent(idx)
    requires d in Lookup(idx.tokens, u) && d in Lookup(idx.tokens, v)
    ensures d in idx.metadata
    ensures Follows(Lookup(idx.tokens, u)[d], Lookup(idx.tokens, v)[d]) <==>
      Adjacent(Stream(idx.metadata[d]), u, v)
  {
    PositionsIff(idx, u, d);
    PositionsIff(idx, v, d);
    var ts := Stream(idx.metadata[d]);
    if Adjacent(ts, u, v) {
      var p :| 0 <= p < |ts| - 1 && ts[p] == u && ts[p + 1] == v;
      assert p in Lookup(idx.tokens, u)[d];
    }
  }

  /** On a consistent index the pairwise condition on postings is the pairwise condition on the stream. */
  lemma PairwiseIffPhraseIn(idx: Index, ws: seq<string>, d: DocId)
    requires Consistent(idx)
    requires |ws| > 0
    ensures PairwiseMatch(ws, idx.tokens, d, |ws|) <==>
      d in idx.metadata && PhraseIn(Stream(idx.metadata[d]), ws)
  {
    forall j | 0 <= j < |ws|
      ensures d in Lookup(idx.tokens, ws[j]) <==> d in idx.metadata && ws[j] in Stream(idx.metadata[d])
    {
      PostedIff(idx, ws[j], d);
    }
    if PairwiseMatch(ws, idx.tokens, d, |ws|) {
      assert d in Lookup(idx.tokens, ws[0]);
    }
    if d in idx.metadata && (forall j :: 0 <= j < |ws| ==> ws[j] in Stream(idx.metadata[d])) {
      forall j | 1 <= j < |ws|
        ensures Follows(Lookup(idx.tokens, ws[j - 1])[d], Lookup(idx.tokens, ws[j])[d]) <==>
          Adjacent(Stream(idx.metadata[d]), ws[j - 1], ws[j])
      {
        FollowsIffAdjacent(idx, ws[j - 1], ws[j], d);
      }
    }
  }

  /**
   * On a consistent index, a phrase query with at least one word answers the
   * indexed documents whose token stream contains every word with each
   * consecutive pair adjacent; an empty query raises.
   */
  lemma ExactMatchSpec(idx: Index, query: string)
    requires Consistent(idx)
    ensures ExactMatch(query, idx).IndexError? <==> |Words(LowerStr(query))| == 0
    ensures ExactMatch(query, idx).Done? ==> forall d :: d in ExactMatch(query, idx).value <==>
      d in idx.metadata && PhraseIn(Stream(idx.metadata[d]), Words(LowerStr(query)))
  {
    var ws := Words(LowerStr(query));
    if |ws| > 0 {
      PhraseMatchSpec(ws, idx.tokens);
      forall d | true
        ensures PairwiseMatch(ws, idx.tokens, d, |ws|) <==>
          d in idx.metadata && PhraseIn(Stream(idx.metadata[d]), ws)
      {
        PairwiseIffPhraseIn(idx, ws, d);
      }
    }
  }

  /** The words `ws` occupy the stream positions starting at `s`, one after another. */
  predicate RunAt(ts: seq<Term>, ws: seq<string>, s: nat) {
    s + |ws| <= |ts| && ts[s..s + |ws|] == ws
  }

  /** A query whose words appear as one contiguous run of the stream meets the condition. */
  lemma ContiguousRunMatches(ts: seq<Term>, ws: seq<string>, s: nat)
    requires RunAt(ts, ws, s)
    ensures PhraseIn(ts, ws)
  {
    forall j | 0 <= j < |ws|
      ensures ws[j] in ts
    {
      assert ts[s + j] == ws[j];
    }
    forall j | 1 <= j < |ws|
      ensures Adjacent(ts, ws[j - 1], ws[j])
    {
      assert ts[s + j - 1] == ws[j - 1] && ts[s + j] == ws[j];
    }
  }

  /**
   * The condition is weaker than a contiguous phrase: `a b x b c` meets it for
   * `a b c`, since `a b` and `b c` are each adjacent, although `a b c` never
   * occurs as a run.
   */
  lemma PairwiseNotChained()
    ensures PhraseIn(["a", "b", "x", "b", "c"], ["a", "b", "c"])
    ensures forall s: nat :: !RunAt(["a", "b", "x", "b", "c"], ["a", "b", "c"], s)
  {
    var ts: seq<Term> := ["a", "b", "x", "b", "c"];
    var ws: seq<string> := ["a", "b", "c"];
    assert ts[0] == ws[0] && ts[1] == ws[1] && ts[4] == ws[2];
    assert Adjacent(ts, ws[0], ws[1]) by { assert ts[0] == ws[0] && ts[1] == ws[1]; }
    assert Adjacent(ts, ws[1], ws[2]) by { assert ts[3] == ws[1] && ts[4] == ws[2]; }
    forall s: nat
      ensures !RunAt(ts, ws, s)
    {
      if s == 0 {
        assert ts[s..s + 3][2] != ws[2];
      } else if s == 1 || s == 2 {
        assert ts[s..s + 3][0] != ws[0];
      }
    }
  }
}

=== FILE: ranking.dfy ===
/**
 * Ranked retrieval: every document is scored by the dot product of its
 * weight vector with the query vector, and the documents are listed by
 * descending score, ties kept in document order.
 */
module Ranking {
  import opened Tokenizer
  import opened InvertedIndex
  import opened VectorSpace
  import Seqs

  /** `doc_vector.get(term, 0)`. */
  function WeightOf(w: map<Term, real>, t: Term): real {
    if t in w then w[t] else 0.0
  }

  /** The dot product, summed over the terms of the query vector. */
  function Dot(qv: seq<QueryTerm>, w: map<Term, real>): real {
    if |qv| == 0 then 0.0 else qv[0].weight * WeightOf(w, qv[0].term) + Dot(qv[1..], w)
  }

  /** A document's score depends only on its weights for the query's terms. */
  lemma {:induction false} DotOnlyQueryTerms(qv: seq<QueryTerm>, w1: map<Term, real>, w2: map<Term, real>)
    requires forall i :: 0 <= i < |qv| ==> WeightOf(w1, qv[i].term) == WeightOf(w2, qv[i].term)
    ensures Dot(qv, w1) == Dot(qv, w2)
  {
    if |qv| > 0 {
      DotOnlyQueryTerms(qv[1..], w1, w2);
    }
  }

  /** With positive weights on both sides, a score is zero without a shared term and positive with one. */
  lemma {:induction false} DotSign(qv: seq<QueryTerm>, w: map<Term, real>)
    requires forall i :: 0 <= i < |qv| ==> qv[i].weight > 0.0
    requires forall t :: t in w ==> w[t] > 0.0
    ensures (exists i :: 0 <= i < |qv| && qv[i].term in w) ==> Dot(qv, w) > 0.0
    ensures (forall i :: 0 <= i < |qv| ==> qv[i].term !in w) ==> Dot(qv, w) == 0.0
  {
    if |qv| > 0 {
      DotSign(qv[1..], w);
      assert forall i :: 1 <= i < |qv| ==> qv[i] == qv[1..][i - 1];
      if qv[0].term in w {
        assert qv[0].weight * w[qv[0].term] > 0.0;
      }
    }
  }

  /** A document with its score. */
  datatype Scored = Scored(id: DocId, score: real)

  /** `results`: every document vector scored against the query, in document order. */
  function ScoreAll(qv: seq<QueryTerm>, docs: seq<DocVector>): seq<Scored> {
    seq(|docs|, i requires 0 <= i < |docs| => Scored(docs[i].id, Dot(qv, docs[i].weights)))
  }

  /** Scores never increase along the list. */
  predicate Descending(s: seq<Scored>) {
    forall i, j :: 0 <= i < j < |s| ==> s[i].score >= s[j].score
  }

  /** The entries with score `v`, in list order. */
  function WithScore(s: seq<Scored>, v: real): seq<Scored> {
    if |s| == 0 then []
    else (if s[0].score == v then [s[0]] else []) + WithScore(s[1..], v)
  }

  /** Places `x` in a descending list ahead of every entry scoring no more than it. */
  function Insert(x: Scored, s: seq<Scored>): (r: seq<Scored>)
    requires Descending(s)
    ensures Descending(r)
    ensures multiset(r) == multiset(s) + multiset{x}
    ensures |r| == |s| + 1
    ensures r[0] == x || (|s| > 0 && r[0] == s[0])
  {
    if |s| == 0 || s[0].score <= x.score then
      DescendingCons(x, s);
      [x] + s
    else
      var rest := Insert(x, s[1..]);
      assert multiset(s) == multiset{s[0]} + multiset(s[1..]) by {
        assert s == [s[0]] + s[1..];
      }
      DescendingCons(s[0], rest);
      [s[0]] + rest
  }

  /** A head scoring at least as much as the first entry keeps a descending list descending. */
  lemma DescendingCons(y: Scored, s: seq<Scored>)
    requires Descending(s)
    requires |s| == 0 || y.score >= s[0].score
    ensures Descending([y] + s)
  {
  }

  /**
   * `sorted(..., key=score, reverse=True)`: descending by score; Python's sort
   * is stable, so entries with equal scores keep their order.
   */
  function SortByScore(s: seq<Scored>): (r: seq<Scored>)
    ensures Descending(r)
    ensures multiset(r) == multiset(s)
    ensures |r| == |s|
  {
    if |s| == 0 then []
    else
      assert s == [s[0]] + s[1..];
      Insert(s[0], SortByScore(s[1..]))
  }

  /** Inserting an entry adds it in front of the entries of its own score and leaves the other scores' entries alone. */
  lemma {:induction false} InsertWithScore(x: Scored, s: seq<Scored>, v: real)
    requires Descending(s)
    ensures WithScore(Insert(x, s), v) == (if x.score == v then [x] else []) + WithScore(s, v)
  {
    if |s| == 0 || s[0].score <= x.score {
      WithScoreCons(x, s, v);
    } else {
      InsertWithScore(x, s[1..], v);
      PassOver(s[0], s[1..], Insert(x, s[1..]), x, v);
      assert [s[0]] + s[1..] == s;
    }
  }

  /** Passing over a head that outscores the new entry leaves the head's place among its own score unchanged. */
  lemma PassOver(y: Scored, tail: seq<Scored>, rest: seq<Scored>, x: Scored, v: real)
    requires y.score > x.score
    requires WithScore(rest, v) == (if x.score == v then [x] else []) + WithScore(tail, v)
    ensures WithScore([y] + rest, v) == (if x.score == v then [x] else []) + WithScore([y] + tail, v)
  {
    WithScoreCons(y, rest, v);
    WithScoreCons(y, tail, v);
  }

  /** The entries of score `v` in a list with a new head. */
  lemma WithScoreCons(y: Scored, s: seq<Scored>, v: real)
    ensures WithScore([y] + s, v) == (if y.score == v then [y] else []) + WithScore(s, v)
  {
    assert ([y] + s)[1..] == s;
  }

  /** The sort is stable: for every score, the entries with that score keep their relative order. */
  lemma {:induction false} SortStable(s: seq<Scored>, v: real)
    ensures WithScore(SortByScore(s), v) == WithScore(s, v)
  {
    if |s| > 0 {
      SortStable(s[1..], v);
      InsertWithScore(s[0], SortByScore(s[1..]), v);
    }
  }

  /** An all-equal list is unchanged by the sort. */
  lemma {:induction false} SortAllEqual(s: seq<Scored>, v: real)
    requires forall i :: 0 <= i < |s| ==> s[i].score == v
    ensures SortByScore(s) == s
  {
    if |s| > 0 {
      SortAllEqual(s[1..], v);
      assert SortByScore(s[1..]) == s[1..];
      assert |s[1..]| == 0 || s[1..][0].score <= s[0].score;
      assert [s[0]] + s[1..] == s;
    }
  }

  /** The ids of a scored list, in list order. */
  function IdsOf(s: seq<Scored>): seq<DocId> {
    seq(|s|, i requires 0 <= i < |s| => s[i].id)
  }

  /** The ids of the document vectors, in document order. */
  function DocIds(docs: seq<DocVector>): seq<DocId> {
    seq(|docs|, i requires 0 <= i < |docs| => docs[i].id)
  }

  /** `retrieve_documents`: document ids by descending score, ties in document order. */
  function Retrieve(qv: seq<QueryTerm>, docs: seq<DocVector>): seq<DocId> {
    IdsOf(SortByScore(ScoreAll(qv, docs)))
  }

  /**
   * The ranking lists the same documents as the vector space, each with its
   * dot-product score, by descending score, and documents of equal score in
   * document order.
   */
  lemma RetrieveRanked(qv: seq<QueryTerm>, docs: seq<DocVector>)
    ensures var ranked := SortByScore(ScoreAll(qv, docs));
      && Retrieve(qv, docs) == IdsOf(ranked)
      && Descending(ranked)
      && multiset(ranked) == multiset(ScoreAll(qv, docs))
      && forall v :: WithScore(ranked, v) == WithScore(ScoreAll(qv, docs), v)
  {
    forall v
      ensures WithScore(SortByScore(ScoreAll(qv, docs)), v) == WithScore(ScoreAll(qv, docs), v)
    {
      SortStable(ScoreAll(qv, docs), v);
    }
  }

  /** A query with no indexed term ranks every document equally, so documents come back in document order. */
  lemma RetrieveEmptyQuery(docs: seq<DocVector>)
    ensures Retrieve([], docs) == DocIds(docs)
  {
    var s := ScoreAll([], docs);
    SortAllEqual(s, 0.0);
  }

  /** In a descending list an entry with a positive score comes before every entry with score zero. */
  lemma PositiveBeforeZero(r: seq<Scored>, i: nat, j: nat)
    requires Descending(r)
    requires i < |r| && j < |r|
    requires r[i].score > 0.0 && r[j].score == 0.0
    ensures i < j
  {
  }

  /** In a list scored from documents with distinct ids, an entry carries the score of the document with its id. */
  lemma ScoreOfId(qv: seq<QueryTerm>, docs: seq<DocVector>, r: seq<Scored>, i: nat, a: nat)
    requires Seqs.Distinct(DocIds(docs))
    requires multiset(r) == multiset(ScoreAll(qv, docs))
    requires i < |r| && a < |docs| && r[i].id == docs[a].id
    ensures r[i].score == Dot(qv, docs[a].weights)
  {
    var s := ScoreAll(qv, docs);
    assert r[i] in multiset(s);
    var k :| 0 <= k < |s| && s[k] == r[i];
    assert DocIds(docs)[k] == DocIds(docs)[a];
  }

  /** Ranked search over an index: build the vector space, weigh the query against its idf table, rank. */
  function Search(idx: Index, ln: real -> real, query: string): seq<DocId>
    requires Consistent(idx)
  {
    var vs := ComputeSpace(idx, ln);
    Retrieve(QueryToVector(query, vs.idf, ln), vs.docs)
  }

  /** Every weight of a query vector built against a consistent index is positive. */
  lemma QueryWeightsPositive(idx: Index, ln: real -> real, ts: seq<Term>)
    requires IsLog(ln)
    requires Consistent(idx)
    ensures QueryWeightsAtLeastOne(WeighTerms(ts, ComputeSpace(idx, ln).idf, ln))
  {
    SpacePositive(idx, ln);
    WeighTermsPositive(ts, ComputeSpace(idx, ln).idf, ln);
  }

  /** A term shared by the query and a document is a query-vector term the document weighs. */
  lemma SharedTermWeighted(idx: Index, ln: real -> real, ts: seq<Term>, a: nat, t: Term)
    requires Consistent(idx)
    requires a < |idx.order|
    requires t in ts && t in Stream(idx.metadata[idx.order[a]])
    ensures SomeTermWeighted(WeighTerms(ts, ComputeSpace(idx, ln).idf, ln), ComputeSpace(idx, ln).docs[a].weights)
  {
    var vs := ComputeSpace(idx, ln);
    var qv := WeighTerms(ts, vs.idf, ln);
    PostedIff(idx, t, idx.order[a]);
    assert t in QueryTerms(qv);
    var m :| 0 <= m < |qv| && QueryTerms(qv)[m] == t;
  }

  /** A document sharing no term with the query weighs none of the query vector's terms. */
  lemma NonMatchingUnweighted(idx: Index, ln: real -> real, ts: seq<Term>, b: nat)
    requires Consistent(idx)
    requires b < |idx.order|
    requires forall t :: t in ts ==> t !in Stream(idx.metadata[idx.order[b]])
    ensures NoTermWeighted(WeighTerms(ts, ComputeSpace(idx, ln).idf, ln), ComputeSpace(idx, ln).docs[b].weights)
  {
    var vs := ComputeSpace(idx, ln);
    var qv := WeighTerms(ts, vs.idf, ln);
    forall m | 0 <= m < |qv|
      ensures qv[m].term !in vs.docs[b].weights
    {
      assert QueryTerms(qv)[m] == qv[m].term;
      PostedIff(idx, qv[m].term, idx.order[b]);
    }
  }

  /** Without a shared term the dot product is zero, whatever the weights. */
  lemma {:induction false} NoSharedTermScoresZero(qv: seq<QueryTerm>, w: map<Term, real>)
    requires forall i :: 0 <= i < |qv| ==> qv[i].term !in w
    ensures Dot(qv, w) == 0.0
  {
    if |qv| > 0 {
      NoSharedTermScoresZero(qv[1..], w);
    }
  }

  /**
   * What ranking needs to separate two documents: distinct ids, weights of at
   * least one on both sides, a query term weighed by document `a` and none
   * weighed by document `b`.
   */
  predicate Separates(qv: seq<QueryTerm>, docs: seq<DocVector>, a: nat, b: nat) {
    && Seqs.Distinct(DocIds(docs))
    && QueryWeightsAtLeastOne(qv)
    && WeightsAtLeastOne(docs)
    && a < |docs| && b < |docs|
    && SomeTermWeighted(qv, docs[a].weights)
    && NoTermWeighted(qv, docs[b].weights)
  }

  predicate QueryWeightsAtLeastOne(qv: seq<QueryTerm>) {
    forall m :: 0 <= m < |qv| ==> qv[m].weight >= 1.0
  }

  /** Some term of the query vector has a weight in `w`. */
  predicate SomeTermWeighted(qv: seq<QueryTerm>, w: map<Term, real>) {
    exists m :: 0 <= m < |qv| && qv[m].term in w
  }

  /** No term of the query vector has a weight in `w`. */
  predicate NoTermWeighted(qv: seq<QueryTerm>, w: map<Term, real>) {
    forall m :: 0 <= m < |qv| ==> qv[m].term !in w
  }

  /** A document that shares a weighted term with the query is ranked ahead of one that shares none. */
  lemma RetrieveSharedFirst(qv: seq<QueryTerm>, docs: seq<DocVector>, a: nat, b: nat, i: nat, j: nat)
    requires Separates(qv, docs, a, b)
    requires var res := Retrieve(qv, docs);
      i < |res| && j < |res| && res[i] == docs[a].id && res[j] == docs[b].id
    ensures i < j
  {
    var r := SortByScore(ScoreAll(qv, docs));
    DotSign(qv, docs[a].weights);
    DotSign(qv, docs[b].weights);
    ScoreOfId(qv, docs, r, i, a);
    ScoreOfId(qv, docs, r, j, b);
    PositiveBeforeZero(r, i, j);
  }

  /** The space lists each document of a consistent index once, in insertion order. */
  lemma SpaceIdsDistinct(idx: Index, ln: real -> real)
    requires Consistent(idx)
    ensures DocIds(ComputeSpace(idx, ln).docs) == idx.order
    ensures Seqs.Distinct(DocIds(ComputeSpace(idx, ln).docs))
  {
    assert DocIds(ComputeSpace(idx, ln).docs) == idx.order;
  }

  /** Over a consistent index, a document sharing a token with the query and one sharing none are separated. */
  lemma IndexSeparates(idx: Index, ln: real -> real, ts: seq<Term>, a: nat, b: nat)
    requires IsLog(ln)
    requires Consistent(idx)
    requires a < |idx.order| && b < |idx.order|
    requires exists t :: t in ts && t in Stream(idx.metadata[idx.order[a]])
    requires forall t :: t in ts ==> t !in Stream(idx.metadata[idx.order[b]])
    ensures Separates(WeighTerms(ts, ComputeSpace(idx, ln).idf, ln), ComputeSpace(idx, ln).docs, a, b)
  {
    SpaceIdsDistinct(idx, ln);
    var t :| t in ts && t in Stream(idx.metadata[idx.order[a]]);
    SharedTermWeighted(idx, ln, ts, a, t);
    NonMatchingUnweighted(idx, ln, ts, b);
    QueryWeightsPositive(idx, ln, ts);
    SpacePositive(idx, ln);
  }

  /**
   * Ranking a token list against the space of a consistent index lists every
   * document that shares a token with it ahead of every document that shares none.
   */
  lemma RetrieveRanksMatchesFirst(idx: Index, ln: real -> real, ts: seq<Term>, a: nat, b: nat, i: nat, j: nat)
    requires IsLog(ln)
    requires Consistent(idx)
    requires a < |idx.order| && b < |idx.order|
    requires exists t :: t in ts && t in Stream(idx.metadata[idx.order[a]])
    requires forall t :: t in ts ==> t !in Stream(idx.metadata[idx.order[b]])
    requires var res := Retrieve(WeighTerms(ts, ComputeSpace(idx, ln).idf, ln), ComputeSpace(idx, ln).docs);
      i < |res| && j < |res| && res[i] == idx.order[a] && res[j] == idx.order[b]
    ensures i < j
  {
    IndexSeparates(idx, ln, ts, a, b);
    RetrieveSharedFirst(WeighTerms(ts, ComputeSpace(idx, ln).idf, ln), ComputeSpace(idx, ln).docs, a, b, i, j);
  }

  /**
   * Ranked search lists every document that shares a term with the query
   * ahead of every document that shares none.
   */
  lemma SearchRanksMatchesFirst(idx: Index, ln: real -> real, query: string, a: nat, b: nat, i: nat, j: nat)
    requires IsLog(ln)
    requires Consistent(idx)
    requires a < |idx.order| && b < |idx.order|
    requires exists t :: t in Tokenize(query) && t in Stream(idx.metadata[idx.order[a]])
    requires forall t :: t in Tokenize(query) ==> t !in Stream(idx.metadata[idx.order[b]])
    requires i < |Search(idx, ln, query)| && j < |Search(idx, ln, query)|
    requires Search(idx, ln, query)[i] == idx.order[a] && Search(idx, ln, query)[j] == idx.order[b]
    ensures i < j
  {
    RetrieveRanksMatchesFirst(idx, ln, Tokenize(query), a, b, i, j);
  }
}

=== FILE: seqs.dfy ===
/** Sequence predicates shared by the modules of the search engine model. */
module Seqs {

  /** No element occurs twice. */
  predicate Distinct<T(==)>(s: seq<T>) {
    forall i, j :: 0 <= i < j < |s| ==> s[i] != s[j]
  }

  /** Every element is smaller than every later one. */
  predicate StrictlyIncreasing(s: seq<int>) {
    forall i, j :: 0 <= i < j < |s| ==> s[i] < s[j]
  }

  /** `sub` is `s` with some elements dropped and the others kept in their order. */
  predicate IsSubsequence<T(==)>(sub: seq<T>, s: seq<T>)
    decreases |s|
  {
    if |sub| == 0 then true
    else if |s| == 0 then false
    else if sub[0] == s[0] then IsSubsequence(sub[1..], s[1..])
    else IsSubsequence(sub, s[1..])
  }

  /** The indices at which `flags` holds, ascending. */
  function TrueIndices(flags: seq<bool>): (ps: seq<nat>)
    ensures forall k :: 0 <= k < |ps| ==> ps[k] < |flags|
  {
    if |flags| == 0 then []
    else
      var n := |flags| - 1;
      TrueIndices(flags[..n]) + (if flags[n] then [n] else [])
  }

  /** The indices come out in strictly ascending order. */
  lemma {:induction false} TrueIndicesAscend(flags: seq<bool>)
    ensures StrictlyIncreasing(TrueIndices(flags))
  {
    if |flags| > 0 {
      var n := |flags| - 1;
      TrueIndicesAscend(flags[..n]);
    }
  }

  /** An index is listed exactly when its flag holds. */
  lemma {:induction false} TrueIndicesMembers(flags: seq<bool>)
    ensures forall j :: 0 <= j < |flags| ==> (j in TrueIndices(flags) <==> flags[j])
  {
    if |flags| > 0 {
      var n := |flags| - 1;
      TrueIndicesMembers(flags[..n]);
      assert forall j :: 0 <= j < n ==> flags[..n][j] == flags[j];
    }
  }
}

=== FILE: text.dfy ===
/**
 * Character classes, lower-casing, the ellipsis rewrite and the whitespace split
 * that the tokenizer and the phrase and boolean query parsers are built on.
 */
module Text {

  /** Python's `str.isspace()`: the separators `str.split()` uses when given no argument. */
  predicate IsSpace(c: char) {
    || c == ' '
    || ('\t' <= c <= '\r')
    || ('\U{1C}' <= c <= '\U{1F}')
    || c == '\U{85}' || c == '\U{A0}' || c == '\U{1680}'
    || ('\U{2000}' <= c <= '\U{200A}')
    || c == '\U{2028}' || c == '\U{2029}' || c == '\U{202F}' || c == '\U{205F}' || c == '\U{3000}'
  }

  /**
   * The regular-expression class `\w`: letters, digits and underscore of the
   * Latin scripts, Vietnamese included, with the Latin-1 letters and numerics
   * (feminine and masculine ordinals, micro sign, superscripts, vulgar fractions).
   */
  predicate IsWordChar(c: char) {
    || ('a' <= c <= 'z') || ('A' <= c <= 'Z') || ('0' <= c <= '9') || c == '_'
    || c == '\U{AA}' || c == '\U{B2}' || c == '\U{B3}' || c == '\U{B5}' || c == '\U{B9}' || c == '\U{BA}'
    || ('\U{BC}' <= c <= '\U{BE}')
    || ('\U{C0}' <= c <= '\U{24F}' && c != '\U{D7}' && c != '\U{F7}')
    || ('\U{1E00}' <= c <= '\U{1EFF}')
  }

  /** `str.lower()` on one character: ASCII, Latin-1 and the Vietnamese capitals. */
  function Lower(c: char): char {
    if ('A' <= c <= 'Z') || ('\U{C0}' <= c <= '\U{DE}' && c != '\U{D7}') then
      (c as int + 32) as char
    else if || c == '\U{102}' || c == '\U{110}' || c == '\U{128}' || c == '\U{168}' || c == '\U{1A0}'
            || ('\U{1EA0}' <= c <= '\U{1EF8}' && c as int % 2 == 0) then
      (c as int + 1) as char
    else if c == '\U{1AF}' then
      '\U{1B0}'
    else
      c
  }

  /** `str.lower()` on a string, character by character. */
  function LowerStr(s: string): string {
    seq(|s|, i requires 0 <= i < |s| => Lower(s[i]))
  }

  /** Lower-casing twice is lower-casing once, so the phrase parsers' second `lower()` is a no-op. */
  lemma LowerStrIdempotent(s: string)
    ensures LowerStr(LowerStr(s)) == LowerStr(s)
  {
  }

  // ---------------------------------------------------------------------------
  // The ellipsis rewrite `text.replace("...", " ")`
  // ---------------------------------------------------------------------------

  predicate EllipsisAt(s: string, i: int)
    requires 0 <= i && i + 2 < |s|
  {
    s[i] == '.' && s[i + 1] == '.' && s[i + 2] == '.'
  }

  /** No three consecutive dots anywhere in `s`. */
  predicate NoEllipsis(s: string) {
    forall i :: 0 <= i && i + 2 < |s| ==> !EllipsisAt(s, i)
  }

  /**
   * Python's `str.replace("...", " ")`: scanning left to right, every
   * non-overlapping occurrence of three dots becomes one space.
   */
  function ReplaceEllipsis(s: string): (r: string)
    ensures |r| <= |s|
    decreases |s|
  {
    if |s| >= 3 && EllipsisAt(s, 0) then
      " " + ReplaceEllipsis(s[3..])
    else if |s| == 0 then
      ""
    else
      [s[0]] + ReplaceEllipsis(s[1..])
  }

  /** Text without an ellipsis passes through unchanged; text with one gets shorter. */
  lemma {:induction false} ReplaceEllipsisFixpoint(s: string)
    ensures NoEllipsis(s) ==> ReplaceEllipsis(s) == s
    ensures !NoEllipsis(s) ==> |ReplaceEllipsis(s)| < |s|
    decreases |s|
  {
    if |s| >= 3 && EllipsisAt(s, 0) {
      assert !NoEllipsis(s);
    } else if |s| > 0 {
      ReplaceEllipsisFixpoint(s[1..]);
      if NoEllipsis(s) {
        forall i | 0 <= i && i + 2 < |s[1..]|
          ensures !EllipsisAt(s[1..], i)
        {
          assert !EllipsisAt(s, i + 1);
        }
      } else {
        var i :| 0 <= i && i + 2 < |s| && EllipsisAt(s, i);
        assert EllipsisAt(s[1..], i - 1);
      }
    }
  }

  /** A character other than a dot is copied and the scan moves on. */
  lemma ReplaceEllipsisCons(c: char, t: string)
    requires c != '.'
    ensures ReplaceEllipsis([c] + t) == [c] + ReplaceEllipsis(t)
  {
    assert ([c] + t)[1..] == t;
  }

  /** A result that starts with a dot got it from a dot that did not open an ellipsis. */
  lemma {:induction false} ReplaceEllipsisLeadingDot(s: string)
    ensures |ReplaceEllipsis(s)| > 0 && ReplaceEllipsis(s)[0] == '.' ==>
      && |s| > 0 && s[0] == '.' && !(|s| >= 3 && EllipsisAt(s, 0))
      && ReplaceEllipsis(s) == [s[0]] + ReplaceEllipsis(s[1..])
  {
  }

  /** After the rewrite no ellipsis is left, even from runs of four or more dots. */
  lemma {:induction false} ReplaceEllipsisRemovesAll(s: string)
    ensures NoEllipsis(ReplaceEllipsis(s))
    decreases |s|
  {
    var r := ReplaceEllipsis(s);
    if |s| >= 3 && EllipsisAt(s, 0) {
      ReplaceEllipsisRemovesAll(s[3..]);
      assert r == " " + ReplaceEllipsis(s[3..]);
      forall i | 0 <= i && i + 2 < |r|
        ensures !EllipsisAt(r, i)
      {
        if i > 0 {
          assert !EllipsisAt(ReplaceEllipsis(s[3..]), i - 1);
        }
      }
    } else if |s| > 0 {
      var t := ReplaceEllipsis(s[1..]);
      ReplaceEllipsisRemovesAll(s[1..]);
      assert r == [s[0]] + t;
      forall i | 0 <= i && i + 2 < |r|
        ensures !EllipsisAt(r, i)
      {
        if i > 0 {
          assert !EllipsisAt(t, i - 1);
        } else if s[0] == '.' && t[0] == '.' {
          ReplaceEllipsisLeadingDot(s[1..]);
          var u := ReplaceEllipsis(s[2..]);
          assert t == [s[1]] + u;
          ReplaceEllipsisLeadingDot(s[2..]);
        }
      }
    }
  }

  /**
   * The leftmost ellipsis becomes one space: the text before it is copied,
   * and the scan resumes right after its third dot. With
   * `ReplaceEllipsisFixpoint` this determines the rewrite on every text.
   */
  lemma {:induction false} ReplaceEllipsisLeftmost(u: string, v: string)
    requires forall i :: 0 <= i < |u| ==> !EllipsisAt(u + "..." + v, i)
    ensures ReplaceEllipsis(u + "..." + v) == u + " " + ReplaceEllipsis(v)
    decreases |u|
  {
    var s := u + "..." + v;
    if |u| == 0 {
      assert s == "..." + v;
      assert s[3..] == v;
    } else {
      assert !EllipsisAt(s, 0);
      assert s[1..] == u[1..] + "..." + v;
      forall i | 0 <= i < |u[1..]|
        ensures !EllipsisAt(u[1..] + "..." + v, i)
      {
        assert !EllipsisAt(s, i + 1);
      }
      ReplaceEllipsisLeftmost(u[1..], v);
      assert u == [u[0]] + u[1..];
    }
  }

  /** Idempotence: a second rewrite changes nothing. */
  lemma ReplaceEllipsisIdempotent(s: string)
    ensures ReplaceEllipsis(ReplaceEllipsis(s)) == ReplaceEllipsis(s)
  {
    ReplaceEllipsisRemovesAll(s);
    ReplaceEllipsisFixpoint(ReplaceEllipsis(s));
  }

  // ---------------------------------------------------------------------------
  // Whitespace splitting `str.split()`
  // ---------------------------------------------------------------------------

  /** A unit that `split()` can produce: non-empty and free of separators. */
  predicate IsWord(w: string) {
    |w| > 0 && forall i :: 0 <= i < |w| ==> !IsSpace(w[i])
  }

  /** Length of the leading run of non-separator characters. */
  function WordEnd(s: string): (n: nat)
    ensures n <= |s|
    ensures forall i :: 0 <= i < n ==> !IsSpace(s[i])
    ensures n < |s| ==> IsSpace(s[n])
  {
    if |s| == 0 || IsSpace(s[0]) then 0 else 1 + WordEnd(s[1..])
  }

  /**
   * Python's `str.split()` with no argument: the maximal runs of
   * non-separator characters, left to right; leading, trailing and repeated
   * separators produce no empty units.
   */
  function Words(s: string): (ws: seq<string>)
    ensures |ws| <= |s|
    ensures forall i :: 0 <= i < |ws| ==> IsWord(ws[i])
    decreases |s|
  {
    if |s| == 0 then []
    else if IsSpace(s[0]) then Words(s[1..])
    else
      var n := WordEnd(s);
      [s[..n]] + Words(s[n..])
  }

  /** A word followed by a separator or by nothing is split off whole. */
  lemma WordsCons(w: string, rest: string)
    requires IsWord(w)
    requires |rest| == 0 || IsSpace(rest[0])
    ensures Words(w + rest) == [w] + Words(rest)
  {
    WordEndOfWord(w, rest);
    assert (w + rest)[..|w|] == w;
    assert (w + rest)[|w|..] == rest;
  }

  /** A leading separator is skipped. */
  lemma WordsSkipSpace(c: char, rest: string)
    requires IsSpace(c)
    ensures Words([c] + rest) == Words(rest)
  {
    assert ([c] + rest)[1..] == rest;
  }

  /** `" ".join(ws)`. */
  function Unwords(ws: seq<string>): string {
    if |ws| == 0 then ""
    else if |ws| == 1 then ws[0]
    else ws[0] + " " + Unwords(ws[1..])
  }

  lemma {:induction false} WordEndOfWord(w: string, rest: string)
    requires forall i :: 0 <= i < |w| ==> !IsSpace(w[i])
    requires |rest| == 0 || IsSpace(rest[0])
    ensures WordEnd(w + rest) == |w|
    decreases |w|
  {
    if |w| > 0 {
      assert (w + rest)[1..] == w[1..] + rest;
      WordEndOfWord(w[1..], rest);
    }
  }

  /** Round trip: splitting words joined by single spaces gives the words back. */
  lemma {:induction false} WordsUnwords(ws: seq<string>)
    requires forall i :: 0 <= i < |ws| ==> IsWord(ws[i])
    ensures Words(Unwords(ws)) == ws
  {
    if |ws| == 1 {
      var w := ws[0];
      WordEndOfWord(w, "");
      assert w + "" == w;
      assert w[|w|..] == "";
    } else if |ws| > 1 {
      var w := ws[0];
      var u := Unwords(ws[1..]);
      var s := w + " " + u;
      assert s == w + (" " + u);
      WordEndOfWord(w, " " + u);
      assert s[..|w|] == w;
      assert s[|w|..] == " " + u;
      assert (" " + u)[1..] == u;
      WordsUnwords(ws[1..]);
    }
  }
}

=== FILE: tokenizer.dfy ===
/**
 * The single normalisation point used by indexing and by ranked queries:
 * ellipsis rewrite, lower-casing, whitespace split, punctuation stripping and
 * stopword removal.
 */
module Tokenizer {
  import opened Text
  import Seqs

  type Term = string

  /**
   * The curated Vietnamese function words that are never indexed, in the
   * source's order (the source repeats some; repeats do not change the set).
   * Kept as five short displays so that membership of a given word stays cheap
   * to decide.
   */
  function StopwordList(): seq<string> {
    StopwordsA() + StopwordsB() + StopwordsC() + StopwordsD() + StopwordsE()
  }

  function StopwordsA(): seq<string> {
    [ "một", "có", "ở", "và", "những", "được", "là", "trên", "khi", "vào", "bị",
      "sau", "đó", "này", "cho", "đến", "từ", "với", "các", "cũng", "gì", "nên" ]
  }

  function StopwordsB(): seq<string> {
    [ "thì", "lại", "đang", "thể", "hay", "như", "chỉ", "điều", "của", "vì", "tôi",
      "nếu", "hoặc", "vì", "bằng", "cả", "đã", "vẫn", "mới", "như", "nào", "khiến" ]
  }

  function StopwordsC(): seq<string> {
    [ "không", "nhiều", "chưa", "đang", "sẽ", "và", "được", "tuy", "kể", "cùng",
      "nếu", "này", "nữa", "mà", "là", "khi", "để", "được", "thì", "vậy", "hơn" ]
  }

  function StopwordsD(): seq<string> {
    [ "bất", "lúc", "còn", "trong", "ngoài", "khác", "rồi", "tại", "một", "tại", "bởi",
      "có", "nơi", "là", "tại", "thường", "chẳng", "được", "trước", "mới", "kể", "sau" ]
  }

  function StopwordsE(): seq<string> {
    [ "cũng", "sở", "thế", "lúc", "tính", "đặc", "là", "thực", "do", "nhờ", "vì" ]
  }

  /** Membership in a list, one element at a time. */
  predicate InList(t: string, l: seq<string>) {
    |l| > 0 && (l[0] == t || InList(t, l[1..]))
  }

  lemma {:induction false} InListMembership(t: string, l: seq<string>)
    ensures InList(t, l) <==> t in l
  {
    if |l| > 0 {
      InListMembership(t, l[1..]);
      assert l == [l[0]] + l[1..];
    }
  }

  /** Membership in the stopword set. */
  predicate IsStopword(t: string) {
    InList(t, StopwordList())
  }

  /** What `re.sub(r"[^\w\s]", "", word)` keeps: word characters and separators. */
  predicate Kept(c: char) {
    IsWordChar(c) || IsSpace(c)
  }

  /** Deletes every character outside `\w` and `\s`, keeping the others in order. */
  function Strip(w: string): (r: string)
    ensures |r| <= |w|
    ensures forall i :: 0 <= i < |r| ==> Kept(r[i])
    ensures r == w <==> forall i :: 0 <= i < |w| ==> Kept(w[i])
    ensures (forall i :: 0 <= i < |w| ==> !IsSpace(w[i])) ==> forall i :: 0 <= i < |r| ==> IsWordChar(r[i])
  {
    if |w| == 0 then ""
    else if Kept(w[0]) then [w[0]] + Strip(w[1..])
    else Strip(w[1..])
  }

  /**
   * Stripping deletes exactly the characters outside `\w` and `\s`: the
   * result is the word with some characters dropped and the rest in order,
   * every kept character survives as often as it occurs, and no other does.
   */
  lemma StripKeepsKept(w: string)
    ensures Seqs.IsSubsequence(Strip(w), w)
    ensures forall c :: Kept(c) ==> multiset(Strip(w))[c] == multiset(w)[c]
    ensures forall c :: !Kept(c) ==> multiset(Strip(w))[c] == 0
  {
    StripOrder(w);
    StripCounts(w);
  }

  /** The stripped word is a subsequence of the word. */
  lemma {:induction false} StripOrder(w: string)
    ensures Seqs.IsSubsequence(Strip(w), w)
  {
    if |w| > 0 {
      var rest := Strip(w[1..]);
      StripOrder(w[1..]);
      if Kept(w[0]) {
        assert ([w[0]] + rest)[1..] == rest;
      } else if |rest| > 0 {
        assert rest[0] != w[0];
      }
    }
  }

  /** Kept characters occur in the stripped word as often as in the word; deleted ones not at all. */
  lemma {:induction false} StripCounts(w: string)
    ensures forall c :: Kept(c) ==> multiset(Strip(w))[c] == multiset(w)[c]
    ensures forall c :: !Kept(c) ==> multiset(Strip(w))[c] == 0
  {
    if |w| > 0 {
      StripCounts(w[1..]);
      assert w == [w[0]] + w[1..];
    }
  }

  /**
   * The list comprehension over the split words: the stripped form of every
   * word whose stripped form is not a stopword. An empty stripped form is kept.
   */
  function KeepTerms(ws: seq<string>): seq<Term> {
    if |ws| == 0 then []
    else
      var t := Strip(ws[0]);
      var rest := KeepTerms(ws[1..]);
      if IsStopword(t) then rest else [t] + rest
  }

  /**
   * At most one term per word, no stopword among them, and a term is produced
   * exactly when some word strips to it and it is not a stopword.
   */
  lemma {:induction false} KeepTermsSpec(ws: seq<string>)
    ensures |KeepTerms(ws)| <= |ws|
    ensures forall i :: 0 <= i < |KeepTerms(ws)| ==> !IsStopword(KeepTerms(ws)[i])
    ensures forall t :: t in KeepTerms(ws) <==> !IsStopword(t) && exists i :: 0 <= i < |ws| && Strip(ws[i]) == t
  {
    if |ws| > 0 {
      KeepTermsSpec(ws[1..]);
      assert forall i :: 1 <= i < |ws| ==> ws[i] == ws[1..][i - 1];
    }
  }

  /** Terms come out in the order of the words they were made from. */
  lemma {:induction false} KeepTermsAppend(a: seq<string>, b: seq<string>)
    ensures KeepTerms(a + b) == KeepTerms(a) + KeepTerms(b)
  {
    if |a| > 0 {
      assert (a + b)[1..] == a[1..] + b;
      KeepTermsAppend(a[1..], b);
    } else {
      assert a + b == b;
    }
  }

  /** For each word, whether its stripped form survives the stopword filter. */
  function KeptFlags(ws: seq<string>): (fs: seq<bool>)
    ensures |fs| == |ws|
  {
    seq(|ws|, i requires 0 <= i < |ws| => !IsStopword(Strip(ws[i])))
  }

  /** The indices of the words whose stripped form is not a stopword, ascending. */
  function KeptPositions(ws: seq<string>): seq<nat> {
    Seqs.TrueIndices(KeptFlags(ws))
  }

  /** A single word yields its stripped form unless that is a stopword. */
  lemma KeepTermsSingle(w: string)
    ensures KeepTerms([w]) == if IsStopword(Strip(w)) then [] else [Strip(w)]
  {
    assert [w][1..] == [];
  }

  /** The flags of a prefix of the words are the prefix of the flags. */
  lemma {:induction false} KeptFlagsPrefix(ws: seq<string>, n: nat)
    requires n <= |ws|
    ensures KeptFlags(ws)[..n] == KeptFlags(ws[..n])
  {
  }

  /** The last word adds its index to the kept positions exactly when its stripped form is not a stopword. */
  lemma {:induction false} KeptPositionsSnoc(ws: seq<string>)
    requires |ws| > 0
    ensures var n := |ws| - 1;
      KeptPositions(ws) == KeptPositions(ws[..n]) + (if IsStopword(Strip(ws[n])) then [] else [n])
  {
    KeptFlagsPrefix(ws, |ws| - 1);
  }

  /** The terms of the words are those of all but the last word, followed by the last word's. */
  lemma {:induction false} KeepTermsSnoc(ws: seq<string>)
    requires |ws| > 0
    ensures KeepTerms(ws) == KeepTerms(ws[..|ws| - 1]) + KeepTerms([ws[|ws| - 1]])
  {
    var n := |ws| - 1;
    assert ws == ws[..n] + [ws[n]];
    KeepTermsAppend(ws[..n], [ws[n]]);
  }

  /** The terms are the stripped forms of the kept words, one per kept word and in word order. */
  lemma {:induction false} KeepTermsPositions(ws: seq<string>)
    ensures |KeptPositions(ws)| == |KeepTerms(ws)|
    ensures forall k :: 0 <= k < |KeptPositions(ws)| ==> KeepTerms(ws)[k] == Strip(ws[KeptPositions(ws)[k]])
  {
    if |ws| > 0 {
      var p := ws[..|ws| - 1];
      KeepTermsPositions(p);
      KeptPositionsSnoc(ws);
      KeepTermsSnoc(ws);
      KeepTermsSingle(ws[|ws| - 1]);
      var pp := KeptPositions(p);
      forall k | 0 <= k < |pp|
        ensures KeepTerms(ws)[k] == Strip(ws[KeptPositions(ws)[k]])
      {
        assert p[pp[k]] == ws[pp[k]];
      }
    }
  }

  /** Text after the ellipsis rewrite and lower-casing, ready to be split. */
  function Normalize(text: string): string {
    LowerStr(ReplaceEllipsis(text))
  }

  /** `tokenize(text)`: the index terms of `text`, in text order. */
  function Tokenize(text: string): seq<Term> {
    KeepTerms(Words(Normalize(text)))
  }

  /**
   * The terms of `text` are, in order, the stripped forms of its whitespace
   * words after the ellipsis rewrite and lower-casing: never a stopword, made
   * of word characters only, at most one per word, and a string is a term
   * exactly when some word strips to it and it is not a stopword.
   */
  lemma TokenizeSpec(text: string)
    ensures |Tokenize(text)| <= |Words(Normalize(text))|
    ensures forall i :: 0 <= i < |Tokenize(text)| ==> !IsStopword(Tokenize(text)[i])
    ensures forall i :: 0 <= i < |Tokenize(text)| ==>
      forall j :: 0 <= j < |Tokenize(text)[i]| ==> IsWordChar(Tokenize(text)[i][j])
    ensures forall t :: t in Tokenize(text) <==>
      !IsStopword(t) && exists i :: 0 <= i < |Words(Normalize(text))| && Strip(Words(Normalize(text))[i]) == t
  {
    var ws := Words(Normalize(text));
    var r := KeepTerms(ws);
    KeepTermsSpec(ws);
    forall i | 0 <= i < |r|
      ensures forall j :: 0 <= j < |r[i]| ==> IsWordChar(r[i][j])
    {
      assert r[i] in r;
      var k :| 0 <= k < |ws| && Strip(ws[k]) == r[i];
      assert IsWord(ws[k]);
    }
  }

  /**
   * `tokenize` keeps text order and multiplicity: its terms are, one for one, the
   * stripped forms of the whitespace words of the normalized text whose stripped
   * form is not a stopword, at ascending word positions.
   */
  lemma TokenizeOrder(text: string)
    ensures var ws := Words(Normalize(text));
      && |KeptPositions(ws)| == |Tokenize(text)|
      && Seqs.StrictlyIncreasing(KeptPositions(ws))
      && (forall k :: 0 <= k < |KeptPositions(ws)| ==>
            KeptPositions(ws)[k] < |ws| && Tokenize(text)[k] == Strip(ws[KeptPositions(ws)[k]]))
      && (forall j :: 0 <= j < |ws| ==> (j in KeptPositions(ws) <==> !IsStopword(Strip(ws[j]))))
  {
    KeepTermsPositions(Words(Normalize(text)));
    Seqs.TrueIndicesAscend(KeptFlags(Words(Normalize(text))));
    Seqs.TrueIndicesMembers(KeptFlags(Words(Normalize(text))));
  }
}

/** Worked tokenizer examples. */
module TokenizerExamples {
  import opened Text
  import opened Tokenizer

  /** Empty text yields no terms. */
  lemma TokenizeEmpty()
    ensures Tokenize("") == []
  {
  }

  lemma EllipsisThenWord()
    ensures ReplaceEllipsis("... run!") == "  run!"
  {
    assert EllipsisAt("... run!", 0);
    assert "... run!"[3..] == " run!";
    ReplaceEllipsisFixpoint(" run!");
  }

  lemma ReplaceAfterRun(t: string)
    ensures ReplaceEllipsis("Run" + t) == "Run" + ReplaceEllipsis(t)
  {
    ReplaceEllipsisCons('n', t);
    ReplaceEllipsisCons('u', "n" + t);
    ReplaceEllipsisCons('R', "un" + t);
    assert "Run" + t == ['R'] + ("un" + t);
    assert "un" + t == ['u'] + ("n" + t);
    assert "n" + t == ['n'] + t;
  }

  lemma RunJoined()
    ensures "Run" + "... run!" == "Run... run!"
    ensures "Run" + "  run!" == "Run  run!"
  {
  }

  lemma RunRewritten()
    ensures ReplaceEllipsis("Run... run!") == "Run  run!"
  {
    EllipsisThenWord();
    ReplaceAfterRun("... run!");
    RunJoined();
  }

  lemma RunLowered()
    ensures LowerStr("Run  run!") == "run  run!"
  {
  }

  lemma RunNormalized()
    ensures Normalize("Run... run!") == "run  run!"
  {
    RunRewritten();
    RunLowered();
  }

  lemma RunBangWord()
    ensures Words("run!") == ["run!"]
  {
    WordsCons("run!", "");
    assert "run!" + "" == "run!";
  }

  lemma SpacesThenWord()
    ensures Words("  run!") == ["run!"]
  {
    assert "  run!" == [' '] + " run!";
    WordsSkipSpace(' ', " run!");
    assert " run!" == [' '] + "run!";
    WordsSkipSpace(' ', "run!");
    RunBangWord();
  }

  lemma RunThenSpaces()
    ensures "run  run!" == "run" + "  run!"
    ensures IsWord("run")
  {
  }

  lemma RunSplit()
    ensures Words("run  run!") == ["run", "run!"]
  {
    SpacesThenWord();
    RunThenSpaces();
    WordsCons("run", "  run!");
  }

  // Each list is checked on its own, which keeps every check small.
  lemma RunNotInA() ensures "run" !in StopwordsA() {}
  lemma RunNotInB() ensures "run" !in StopwordsB() {}
  lemma RunNotInC() ensures "run" !in StopwordsC() {}
  lemma RunNotInD() ensures "run" !in StopwordsD() {}
  lemma RunNotInE() ensures "run" !in StopwordsE() {}

  /** `run` is not a stopword: it is in none of the five lists. */
  lemma RunNotStopword()
    ensures !IsStopword("run")
  {
    RunNotInA();
    RunNotInB();
    RunNotInC();
    RunNotInD();
    RunNotInE();
    InListMembership("run", StopwordList());
  }

  lemma StripRun()
    ensures Strip("run!") == "run"
    ensures Strip("run") == "run"
  {
    assert "run!"[1..] == "un!";
    assert "un!"[1..] == "n!";
    assert "n!"[1..] == "!";
    assert Strip("!") == "";
  }

  lemma RunTerms()
    ensures KeepTerms(["run", "run!"]) == ["run", "run"]
  {
    StripRun();
    RunNotStopword();
    KeepTermsSingle("run");
    KeepTermsSingle("run!");
    KeepTermsAppend(["run"], ["run!"]);
    assert ["run"] + ["run!"] == ["run", "run!"];
  }

  /** Case and trailing punctuation are folded away and the ellipsis separates words. */
  lemma TokenizeFoldsCaseAndPunctuation()
    ensures Tokenize("Run... run!") == ["run", "run"]
  {
    RunNormalized();
    RunSplit();
    RunTerms();
  }

  // Each list is checked on its own, which keeps every check small.
  lemma EmptyNotInA() ensures "" !in StopwordsA() {}
  lemma EmptyNotInB() ensures "" !in StopwordsB() {}
  lemma EmptyNotInC() ensures "" !in StopwordsC() {}
  lemma EmptyNotInD() ensures "" !in StopwordsD() {}
  lemma EmptyNotInE() ensures "" !in StopwordsE() {}

  /** The empty string is not a stopword. */
  lemma EmptyNotStopword()
    ensures !IsStopword("")
  {
    EmptyNotInA();
    EmptyNotInB();
    EmptyNotInC();
    EmptyNotInD();
    EmptyNotInE();
    InListMembership("", StopwordList());
  }

  /** Text without dots or capitals is left alone by the normalization. */
  lemma BangsNormalized()
    ensures Normalize("!!!") == "!!!"
  {
    ReplaceEllipsisFixpoint("!!!");
    assert LowerStr("!!!") == "!!!";
  }

  /** A word made only of punctuation becomes the empty term, which is kept. */
  lemma TokenizeKeepsEmptyTerm()
    ensures Tokenize("!!!") == [""]
  {
    BangsNormalized();
    assert "!!!" + "" == "!!!";
    WordsCons("!!!", "");
    assert Words(Normalize("!!!")) == ["!!!"];
    assert Strip("!!!") == "";
    EmptyNotStopword();
  }
}

=== FILE: vector_space.dfy ===
/**
 * The TF-IDF vector space: an inverse document frequency per index term, a
 * sparse weight vector per document, and the weighted vector of a query.
 * The natural logarithm is a parameter `ln`; weights are exact reals.
 */
module VectorSpace {
  import opened Seqs
  import opened Tokenizer
  import opened InvertedIndex

  /** What the proofs need of `ln`: it grows strictly on the positive reals and vanishes at 1. */
  ghost predicate IsLog(ln: real -> real) {
    && ln(1.0) == 0.0
    && forall x: real, y: real :: 0.0 < x < y ==> ln(x) < ln(y)
  }

  /** Smoothed inverse document frequency of a term found in `df` of `n` documents. */
  function Idf(n: nat, df: nat, ln: real -> real): real
    requires df > 0
  {
    1.0 + ln(n as real / df as real)
  }

  /** Sublinear term frequency: zero for an absent term. */
  function Tf(f: nat, ln: real -> real): real {
    if f > 0 then 1.0 + ln(f as real) else 0.0
  }

  /** The weight of a term occurring `f` times in a document, when `df` of `n` documents contain it. */
  function TfIdf(f: nat, n: nat, df: nat, ln: real -> real): real
    requires df > 0
  {
    Tf(f, ln) * Idf(n, df, ln)
  }

  /** The rarer of two terms has the larger inverse document frequency. */
  lemma IdfDecreasing(n: nat, df1: nat, df2: nat, ln: real -> real)
    requires IsLog(ln)
    requires n > 0 && 0 < df1 < df2
    ensures Idf(n, df1, ln) > Idf(n, df2, ln)
  {
    var a := n as real / df1 as real;
    var b := n as real / df2 as real;
    assert b * df2 as real == n as real;
    assert a * df1 as real == n as real;
    assert 0.0 < b < a;
  }

  /** A term found in every document has inverse document frequency one; none has less. */
  lemma IdfAtLeastOne(n: nat, df: nat, ln: real -> real)
    requires IsLog(ln)
    requires 0 < df <= n
    ensures Idf(n, df, ln) >= 1.0
    ensures Idf(n, df, ln) == 1.0 <==> df == n
  {
    var q := n as real / df as real;
    assert q * df as real == n as real;
    if df < n {
      assert q > 1.0;
    } else {
      assert q == 1.0;
    }
  }

  /** Term frequency is zero exactly for an absent term, one for a single occurrence, and grows with the count. */
  lemma TfIncreasing(f1: nat, f2: nat, ln: real -> real)
    requires IsLog(ln)
    requires f1 < f2
    ensures Tf(f1, ln) < Tf(f2, ln)
    ensures Tf(0, ln) == 0.0 && Tf(1, ln) == 1.0
    ensures f2 > 0 ==> Tf(f2, ln) >= 1.0
  {
    if f1 > 0 {
      assert ln(f1 as real) < ln(f2 as real);
    }
    if f2 > 1 {
      assert ln(1.0) < ln(f2 as real);
    }
  }

  /** The weights of one document, keyed by the terms it contains. */
  datatype DocVector = DocVector(id: DocId, weights: map<Term, real>)

  /** Document vectors in document order, and the inverse document frequency of every index term. */
  datatype Space = Space(docs: seq<DocVector>, idf: map<Term, real>)

  /**
   * `compute_tfidf_vector_space`: a term's weight in a document is its
   * sublinear frequency there times its inverse document frequency, where the
   * frequency is the length of the posting list and the document frequency
   * is the number of documents posted under the term.
   */
  function ComputeSpace(idx: Index, ln: real -> real): (vs: Space)
    requires NoEmptyTerm(idx) && PostedInMetadata(idx)
    ensures vs.idf.Keys == idx.tokens.Keys
    ensures |vs.docs| == |idx.order|
    ensures forall i :: 0 <= i < |vs.docs| ==> vs.docs[i].id == idx.order[i]
    ensures forall i, t :: 0 <= i < |vs.docs| ==>
      (t in vs.docs[i].weights <==> t in idx.tokens && idx.order[i] in idx.tokens[t])
  {
    var n := |idx.metadata|;
    var idf := map t | t in idx.tokens :: Idf(n, |idx.tokens[t]|, ln);
    var docs := seq(|idx.order|, i requires 0 <= i < |idx.order| => DocVector(idx.order[i], DocWeights(idx, ln, idx.order[i])));
    Space(docs, idf)
  }

  function DocWeights(idx: Index, ln: real -> real, d: DocId): map<Term, real>
    requires NoEmptyTerm(idx)
  {
    map t | t in idx.tokens && d in idx.tokens[t] :: TfIdf(|idx.tokens[t][d]|, |idx.metadata|, |idx.tokens[t]|, ln)
  }

  /** The documents whose token stream contains `t`. */
  ghost function Containing(idx: Index, t: Term): set<DocId> {
    set d | d in idx.metadata && t in Stream(idx.metadata[d])
  }

  /** The number of times `t` occurs in a token stream is the number of positions recorded for it. */
  lemma {:induction false} OccurrencesBeforeCount(ts: seq<Term>, t: Term, k: nat)
    requires k <= |ts|
    ensures |OccurrencesBefore(ts, t, k)| == multiset(ts[..k])[t]
  {
    if k > 0 {
      OccurrencesBeforeCount(ts, t, k - 1);
      OccurrencesBeforeStep(ts, t, k);
      PrefixCountStep(ts, t, k);
      var a := |OccurrencesBefore(ts, t, k - 1)|;
      var b := multiset(ts[..k - 1])[t];
      assert a == b;
    }
  }

  /** One more token adds one recorded position exactly when it is `t`. */
  lemma OccurrencesBeforeStep(ts: seq<Term>, t: Term, k: nat)
    requires 0 < k <= |ts|
    ensures |OccurrencesBefore(ts, t, k)| == |OccurrencesBefore(ts, t, k - 1)| + (if ts[k - 1] == t then 1 else 0)
  {
  }

  /** One more element of the prefix adds one to its count exactly when it is the element counted. */
  lemma PrefixCountStep(s: seq<Term>, x: Term, k: nat)
    requires 0 < k <= |s|
    ensures multiset(s[..k])[x] == multiset(s[..k - 1])[x] + (if s[k - 1] == x then 1 else 0)
  {
    assert s[..k] == s[..k - 1] + [s[k - 1]];
  }

  lemma OccurrencesCount(ts: seq<Term>, t: Term)
    ensures |Occurrences(ts, t)| == multiset(ts)[t]
  {
    OccurrencesBeforeCount(ts, t, |ts|);
    assert ts[..|ts|] == ts;
  }

  /** In a consistent index a term's document map has exactly the documents that contain it. */
  lemma PostedDocuments(idx: Index, t: Term)
    requires Consistent(idx)
    requires t in idx.tokens
    ensures idx.tokens[t].Keys == Containing(idx, t)
    ensures |idx.tokens[t]| == |Containing(idx, t)|
  {
    forall d | d in Containing(idx, t)
      ensures d in idx.tokens[t]
    {
      var ts := Stream(idx.metadata[d]);
      var p :| 0 <= p < |ts| && ts[p] == t;
    }
    assert |idx.tokens[t]| == |idx.tokens[t].Keys|;
  }

  /** The computed table holds, for each index term, 1 + ln(N/df), with df the number of documents whose text contains the term. */
  lemma SpaceIdf(idx: Index, ln: real -> real, t: Term)
    requires Consistent(idx)
    requires t in idx.tokens
    ensures |Containing(idx, t)| > 0
    ensures ComputeSpace(idx, ln).idf[t] == Idf(|idx.metadata|, |Containing(idx, t)|, ln)
  {
    PostedDocuments(idx, t);
  }

  /** Of two index terms, the one contained in fewer documents has the larger entry in the computed table. */
  lemma SpaceIdfRarer(idx: Index, ln: real -> real, t1: Term, t2: Term)
    requires IsLog(ln)
    requires Consistent(idx)
    requires t1 in idx.tokens && t2 in idx.tokens
    requires |Containing(idx, t1)| < |Containing(idx, t2)|
    ensures ComputeSpace(idx, ln).idf[t1] > ComputeSpace(idx, ln).idf[t2]
  {
    SpaceIdf(idx, ln, t1);
    SpaceIdf(idx, ln, t2);
    PostedDocuments(idx, t2);
    var d :| d in idx.tokens[t2];
    assert d in idx.metadata;
    IdfDecreasing(|idx.metadata|, |Containing(idx, t1)|, |Containing(idx, t2)|, ln);
  }

  /** A term of a document's text is weighted by its count in the text and the number of documents containing it. */
  lemma WeightFromStream(idx: Index, ln: real -> real, i: nat, t: Term)
    requires Consistent(idx)
    requires i < |idx.order|
    requires idx.order[i] in idx.metadata && t in Stream(idx.metadata[idx.order[i]])
    ensures |Containing(idx, t)| > 0
    ensures var w := DocWeights(idx, ln, idx.order[i]);
      && t in w
      && w[t] == TfIdf(multiset(Stream(idx.metadata[idx.order[i]]))[t], |idx.metadata|, |Containing(idx, t)|, ln)
  {
    PostedIff(idx, t, idx.order[i]);
    var d := idx.order[i];
    var ts := Stream(idx.metadata[d]);
    PostedDocuments(idx, t);
    OccurrencesCount(ts, t);
    assert |idx.tokens[t][d]| == multiset(ts)[t];
  }

  /**
   * The vector space computed from a consistent index, stated against each
   * document's own token stream: a document's vector has exactly the terms of
   * its text, weighted by their count in the text and by the number of
   * documents whose text contains them.
   */
  lemma SpaceFromStreams(idx: Index, ln: real -> real, i: nat)
    requires Consistent(idx)
    requires i < |idx.order|
    ensures var vs := ComputeSpace(idx, ln);
      var d := idx.order[i];
      var ts := Stream(idx.metadata[d]);
      && vs.docs[i].id == d
      && (forall t :: t in vs.docs[i].weights <==> t in ts)
      && (forall t :: t in vs.docs[i].weights ==>
            |Containing(idx, t)| > 0 &&
            vs.docs[i].weights[t] == TfIdf(multiset(ts)[t], |idx.metadata|, |Containing(idx, t)|, ln))
  {
    var w := DocWeights(idx, ln, idx.order[i]);
    assert ComputeSpace(idx, ln).docs[i].weights == w;
    forall t
      ensures t in w <==> t in Stream(idx.metadata[idx.order[i]])
    {
      PostedIff(idx, t, idx.order[i]);
    }
    forall t | t in w
      ensures |Containing(idx, t)| > 0
      ensures w[t] == TfIdf(multiset(Stream(idx.metadata[idx.order[i]]))[t], |idx.metadata|, |Containing(idx, t)|, ln)
    {
      WeightFromStream(idx, ln, i, t);
    }
  }

  lemma SubsetCardinality<T>(a: set<T>, b: set<T>)
    requires a <= b
    ensures |a| <= |b|
  {
    assert b == a + (b - a);
    assert a * (b - a) == {};
  }

  /** A term present in a document and posted in no more documents than exist weighs at least one. */
  lemma TfIdfAtLeastOne(f: nat, n: nat, df: nat, ln: real -> real)
    requires IsLog(ln)
    requires 0 < f && 0 < df <= n
    ensures TfIdf(f, n, df, ln) >= 1.0
  {
    IdfAtLeastOne(n, df, ln);
    TfIncreasing(0, f, ln);
    ProductAtLeastOne(Tf(f, ln), Idf(n, df, ln));
  }

  lemma ProductAtLeastOne(a: real, b: real)
    requires a >= 1.0 && b >= 1.0
    ensures a * b >= 1.0
  {
    assert a * b >= 1.0 * b;
  }

  /** No term is posted in more documents than the index holds, so its inverse document frequency is at least one. */
  lemma IdfPositive(idx: Index, ln: real -> real, t: Term)
    requires IsLog(ln)
    requires Consistent(idx)
    requires t in idx.tokens
    ensures ComputeSpace(idx, ln).idf[t] >= 1.0
  {
    SubsetCardinality(idx.tokens[t].Keys, idx.metadata.Keys);
    IdfAtLeastOne(|idx.metadata|, |idx.tokens[t]|, ln);
  }

  /** Every stored document weight is at least one. */
  lemma WeightPositive(idx: Index, ln: real -> real, i: nat, t: Term)
    requires IsLog(ln)
    requires Consistent(idx)
    requires i < |idx.order|
    requires t in DocWeights(idx, ln, idx.order[i])
    ensures DocWeights(idx, ln, idx.order[i])[t] >= 1.0
  {
    var d := idx.order[i];
    PostingListShape(idx, t, d);
    SubsetCardinality(idx.tokens[t].Keys, idx.metadata.Keys);
    TfIdfAtLeastOne(|idx.tokens[t][d]|, |idx.metadata|, |idx.tokens[t]|, ln);
  }

  /** Every inverse document frequency is at least one. */
  predicate IdfAtLeastOneEverywhere(idf: map<Term, real>) {
    forall t :: t in idf ==> idf[t] >= 1.0
  }

  /** Every weight of every document vector is at least one. */
  predicate WeightsAtLeastOne(docs: seq<DocVector>) {
    forall i, t :: 0 <= i < |docs| && t in docs[i].weights ==> docs[i].weights[t] >= 1.0
  }

  /** Every inverse document frequency and every weight of the computed space is at least one. */
  lemma SpacePositive(idx: Index, ln: real -> real)
    requires IsLog(ln)
    requires Consistent(idx)
    ensures IdfAtLeastOneEverywhere(ComputeSpace(idx, ln).idf)
    ensures WeightsAtLeastOne(ComputeSpace(idx, ln).docs)
  {
    forall t | t in idx.tokens
      ensures ComputeSpace(idx, ln).idf[t] >= 1.0
    {
      IdfPositive(idx, ln, t);
    }
    forall i, t | 0 <= i < |idx.order| && t in DocWeights(idx, ln, idx.order[i])
      ensures DocWeights(idx, ln, idx.order[i])[t] >= 1.0
    {
      WeightPositive(idx, ln, i, t);
    }
    forall i | 0 <= i < |idx.order|
      ensures ComputeSpace(idx, ln).docs[i].weights == DocWeights(idx, ln, idx.order[i])
    {
    }
  }

  /**
   * The `term_frequencies` loop: every token known to `idf` is counted; the
   * table has exactly those tokens as keys, each with its number of
   * occurrences.
   */
  function TermFrequencies(ts: seq<Term>, idf: map<Term, real>): (tf: map<Term, nat>)
    ensures forall t :: t in tf <==> t in ts && t in idf
    ensures forall t :: t in tf ==> tf[t] == multiset(ts)[t]
  {
    if |ts| == 0 then map[]
    else
      var prev := ts[..|ts| - 1];
      var t := ts[|ts| - 1];
      assert ts == prev + [t];
      var tf := TermFrequencies(prev, idf);
      if t in idf then tf[t := (if t in tf then tf[t] else 0) + 1] else tf
  }

  /** The keys of the table in insertion order, which is the order of first occurrence (`FirstOccurrencesOrder`). */
  function FirstOccurrences(ts: seq<Term>, idf: map<Term, real>): (ks: seq<Term>)
    ensures Distinct(ks)
    ensures forall t :: t in ks <==> t in ts && t in idf
  {
    if |ts| == 0 then []
    else
      var prev := ts[..|ts| - 1];
      var t := ts[|ts| - 1];
      assert ts == prev + [t];
      var ks := FirstOccurrences(prev, idf);
      if t in idf && t !in ks then ks + [t] else ks
  }

  /** The index of the first occurrence of `t` in `ts`. */
  function FirstIndex(ts: seq<Term>, t: Term): (i: nat)
    requires t in ts
    ensures i < |ts| && ts[i] == t
    ensures forall j :: 0 <= j < i ==> ts[j] != t
  {
    if ts[0] == t then 0 else 1 + FirstIndex(ts[1..], t)
  }

  /** Appending a token moves no first occurrence, and a new token first occurs at the end. */
  lemma FirstIndexSnoc(ts: seq<Term>, u: Term, t: Term)
    requires t in ts + [u]
    ensures t in ts ==> FirstIndex(ts + [u], t) == FirstIndex(ts, t)
    ensures t !in ts ==> FirstIndex(ts + [u], t) == |ts|
  {
    var i := FirstIndex(ts + [u], t);
    if t in ts {
      var k := FirstIndex(ts, t);
      assert (ts + [u])[k] == t;
    } else {
      assert forall j :: 0 <= j < |ts| ==> (ts + [u])[j] != t;
    }
  }

  /** The listed terms come in the order in which they first occur in the token list. */
  lemma {:induction false} FirstOccurrencesOrder(ts: seq<Term>, idf: map<Term, real>)
    ensures forall i, j :: 0 <= i < j < |FirstOccurrences(ts, idf)| ==>
      && FirstOccurrences(ts, idf)[i] in ts && FirstOccurrences(ts, idf)[j] in ts
      && FirstIndex(ts, FirstOccurrences(ts, idf)[i]) < FirstIndex(ts, FirstOccurrences(ts, idf)[j])
  {
    if |ts| == 0 {
      assert FirstOccurrences(ts, idf) == [];
    } else {
      var prev := ts[..|ts| - 1];
      var t := ts[|ts| - 1];
      assert ts == prev + [t];
      FirstOccurrencesOrder(prev, idf);
      var pk := FirstOccurrences(prev, idf);
      var ks := FirstOccurrences(ts, idf);
      var isNew := t in idf && t !in pk;
      assert ks == if isNew then pk + [t] else pk;
      forall i, j | 0 <= i < j < |ks|
        ensures ks[i] in ts && ks[j] in ts && FirstIndex(ts, ks[i]) < FirstIndex(ts, ks[j])
      {
        OrderStep(prev, t, ts, pk, ks, isNew, i, j);
      }
    }
  }

  /** One pair of listed terms after a token is appended. */
  lemma OrderStep(prev: seq<Term>, t: Term, ts: seq<Term>, pk: seq<Term>, ks: seq<Term>, isNew: bool, i: nat, j: nat)
    requires ts == prev + [t]
    requires forall x :: x in pk ==> x in prev
    requires isNew ==> t !in prev
    requires forall a, b :: 0 <= a < b < |pk| ==> pk[a] in prev && pk[b] in prev && FirstIndex(prev, pk[a]) < FirstIndex(prev, pk[b])
    requires ks == if isNew then pk + [t] else pk
    requires i < j < |ks|
    ensures ks[i] in ts && ks[j] in ts && FirstIndex(ts, ks[i]) < FirstIndex(ts, ks[j])
  {
    assert ks[i] == pk[i] && pk[i] in pk;
    FirstIndexSnoc(prev, t, pk[i]);
    if j < |pk| {
      assert ks[j] == pk[j] && pk[j] in pk;
      FirstIndexSnoc(prev, t, pk[j]);
    } else {
      FirstIndexSnoc(prev, t, t);
    }
  }

  /** One weighted query term. */
  datatype QueryTerm = QueryTerm(term: Term, weight: real)

  function QueryTerms(qv: seq<QueryTerm>): seq<Term> {
    seq(|qv|, i requires 0 <= i < |qv| => qv[i].term)
  }

  /** Weighs every indexed term of a token list once, by its sublinear count times its inverse document frequency. */
  function WeighTerms(ts: seq<Term>, idf: map<Term, real>, ln: real -> real): (qv: seq<QueryTerm>)
    ensures Distinct(QueryTerms(qv))
    ensures forall t :: t in QueryTerms(qv) <==> t in ts && t in idf
  {
    var tf := TermFrequencies(ts, idf);
    var ks := FirstOccurrences(ts, idf);
    var qv := seq(|ks|, i requires 0 <= i < |ks| => QueryTerm(ks[i], Tf(tf[ks[i]], ln) * idf[ks[i]]));
    assert QueryTerms(qv) == ks;
    qv
  }

  /** Each weighted term is indexed and weighs its sublinear count in the token list times its inverse document frequency. */
  lemma {:induction false} WeighTermsWeights(ts: seq<Term>, idf: map<Term, real>, ln: real -> real, i: nat)
    requires i < |WeighTerms(ts, idf, ln)|
    ensures var q := WeighTerms(ts, idf, ln)[i];
      && q.term in idf
      && multiset(ts)[q.term] > 0
      && q.weight == Tf(multiset(ts)[q.term], ln) * idf[q.term]
  {
    var ks := FirstOccurrences(ts, idf);
    assert ks[i] in ks;
  }

  /** A term present `f` times, weighed by an idf of at least one, weighs at least one. */
  lemma CountedWeightAtLeastOne(f: nat, w: real, ln: real -> real)
    requires IsLog(ln)
    requires f > 0 && w >= 1.0
    ensures Tf(f, ln) * w >= 1.0
  {
    TfIncreasing(0, f, ln);
    ProductAtLeastOne(Tf(f, ln), w);
  }

  /** When every inverse document frequency is at least one, so is every query weight. */
  lemma {:induction false} WeighTermsPositive(ts: seq<Term>, idf: map<Term, real>, ln: real -> real)
    requires IsLog(ln)
    requires IdfAtLeastOneEverywhere(idf)
    ensures forall m :: 0 <= m < |WeighTerms(ts, idf, ln)| ==> WeighTerms(ts, idf, ln)[m].weight >= 1.0
  {
    forall m | 0 <= m < |WeighTerms(ts, idf, ln)|
      ensures WeighTerms(ts, idf, ln)[m].weight >= 1.0
    {
      QueryWeightAtLeastOne(ts, idf, ln, m);
    }
  }

  /** One query weight, when every inverse document frequency is at least one. */
  lemma {:induction false} QueryWeightAtLeastOne(ts: seq<Term>, idf: map<Term, real>, ln: real -> real, m: nat)
    requires IsLog(ln)
    requires IdfAtLeastOneEverywhere(idf)
    requires m < |WeighTerms(ts, idf, ln)|
    ensures WeighTerms(ts, idf, ln)[m].weight >= 1.0
  {
    WeighTermsWeights(ts, idf, ln, m);
    var q := WeighTerms(ts, idf, ln)[m];
    var f := multiset(ts)[q.term];
    assert idf[q.term] >= 1.0;
    CountedWeightAtLeastOne(f, idf[q.term], ln);
  }

  /**
   * `query_to_vector`: the tokenized query restricted to indexed terms, each
   * term once, weighted by its sublinear count in the query times its
   * inverse document frequency.
   */
  function QueryToVector(query: string, idf: map<Term, real>, ln: real -> real): seq<QueryTerm> {
    WeighTerms(Tokenize(query), idf, ln)
  }
}
